=== FILE: README.md ===
# In-memory message queue: a Dafny model

This project models the core of a multi-tenant, in-process message queue
broker written in Go. It covers one queue's message lifecycle, the lazily
filled registry of queues, the API-key store, the wrapper that scopes queue
names to tenants, and the parser for the `Authorization: ApiKey <token>`
header.

Each queue holds three collections:
- a FIFO `pending` list;
- an `inFlight` map from message id to the leased message;
- an append-only `deadLetter` list.

Publish appends to `pending`. Claim pops the head of `pending`, bumps its
delivery count and leases it. A message whose count now exceeds the limit is
dead-lettered, and Claim moves on to the next head. Ack forgets a leased
message. A background tick returns expired leases to `pending`, at most 100
per tick.

Every public operation runs under a mutex, so each is modelled as a pure
transition on an immutable state value. The collaborators of the Go code
become parameters:
- **Time.** The current instant `now` is a parameter, in nanoseconds.
- **Randomness.** The bytes read from the entropy source are an
  `Option<seq<byte>>` parameter; `None` means the read failed.
- **SHA-256.** It is an arbitrary function parameter.
- **Sweep order.** Go's map iteration order in the sweep is a parameter,
  `order`.

Base64url (section 5 of RFC 4648, unpadded, as Go's `RawURLEncoding`) and
the two `strings` functions the core calls (`Cut`, `TrimSpace`) are
implemented rather than assumed. Their round trip and alphabet facts are
proved as lemmas.

Modules, by source file:
- `Common`: bytes and the `Option`/`Result`/`Outcome` wrappers.
- `Base64Url`: the codec.
- `Strings`: `Cut`, `TrimSpace` and `unicode.IsSpace`.
- `Queue` and `QueueProperties`: queue.go.
- `Broker`: broker.go.
- `Auth`: auth.go.
- `AuthenticatedBroker`: authanticated-broker.go.
- `Server`: the `getAPIKey` function of server.go.

Main results:
- **The queue invariant.** Ids are distinct, each lives in exactly one
  collection, and every leased message is within the delivery limit. Every
  operation keeps this invariant (given fresh random ids), and messages are
  conserved over any run.
- **Claim.** It is characterised against a reference description: it
  dead-letters the undeliverable prefix of `pending` and leases the first
  deliverable message. Successive claims follow publish order.
- **The sweep.** In every reachable state, the sweep's dead-letter branch
  (queue.go lines 151-152) is dead code. Dead-lettering only ever happens
  inside Claim.
- **Tokens.** A token issued by CreateKey validates back to its tenant, also
  when sent through the header parser. Right after RevokeKey, no token
  naming that key id validates, and tokens naming other key ids keep their
  verdict.
- **Tenant isolation.** Scoped queue names `tenant:queue` are injective only
  while tenant ids contain no ':'. `TenantsCanCollide` exhibits two tenants
  that share a queue when one of the ids does contain ':' (tenant "a" with
  queue "b:c", and tenant "a:b" with queue "c"). Nothing in the code rejects
  such a tenant id. Under that restriction, an operation by one tenant never
  touches another tenant's queues.

Two behaviours of the code are worth stating on their own:
- **Claim's wait has no timeout.** `cond.Wait()` at
  internal/queue/queue.go:110 takes none, so the deadline is re-checked only
  after a publish or requeue signal. A Claim evaluation is therefore
  modelled as `Delivered`, `TimedOut` or `WouldBlock`, and no wall-clock
  bound is claimed.
- **The dead-letter branch of the expiry sweep can never fire.** That
  branch is internal/queue/queue.go:151-152. SweepDeadLetterBranchUnreachable
  proves that it never fires, so dead-lettering only ever happens inside
  Claim.

## Model

| member | source | states |
|---|---|---|
| Base64Url.Encode | internal/queue/queue.go:61 | The text has 4 characters per 3 bytes (rounded up, no padding) and uses only the URL-safe alphabet |
| Base64Url.Decode | internal/auth/auth.go:71 | After line breaks are skipped, decoding succeeds iff every remaining character is in the URL-safe alphabet and their number does not leave a lone final character; it then yields three octets per four characters, rounded down |
| Base64Url.RemoveLineBreaksKeeps | internal/auth/auth.go:71 | Skipping line breaks keeps every other character of the text |
| Base64Url.DecodeRejectsForeignChar | internal/auth/auth.go:71-74 | Text holding '=' or any other non-alphabet character that is not a line break is rejected |
| Base64Url.DecodeEncode | internal/auth/auth.go:71 | Decoding the encoding of any byte string gives back exactly those bytes |
| Base64Url.EncodeHasNoDot | internal/auth/auth.go:59 | No encoding contains '.', so '.' can separate a key id from a secret |
| Base64Url.RegroupSplitPartial | internal/auth/auth.go:87 | A final group of one or two octets is rebuilt exactly from its two or three sextets |
| Base64Url.RegroupSplitGroup | internal/auth/auth.go:87 | A whole group of three octets is rebuilt exactly, provided the octets after it are rebuilt exactly too |
| Base64Url.RegroupSplit | internal/auth/auth.go:87 | Regrouping sextets into bytes undoes the byte-to-sextet split, group by group |
| Strings.Cut | internal/auth/auth.go:65 | Found exactly when the separator occurs; the input is then before + separator + after, with no separator before |
| Strings.CutJoin | internal/server/server.go:28 | Cutting `a + sep + b` with `sep` not in `a` gives back `a` and `b` |
| Strings.IsSpace | internal/server/server.go:34 | Go's white-space test as `TrimSpace` applies it, over the Latin-1 spaces and the other White_Space code points |
| Strings.IsSpaceAscii | internal/server/server.go:34 | On ASCII, IsSpace is exactly tab, line feed, vertical tab, form feed, carriage return and space |
| Strings.LeadingSpaces | internal/server/server.go:34 | Everything before the count is white space and the character at the count, if any, is not |
| Strings.TrailingSpaces | internal/server/server.go:34 | Everything in the last count characters is white space and the character before them, if any, is not |
| Strings.TrimSpace | internal/server/server.go:34 | The result is an infix with only white space around it, starts and ends with a non-space, and is empty exactly when the input is all white space |
| Strings.TrimSpacePadded | internal/server/server.go:34 | Trimming a trimmed text padded with white space gives back exactly that text |
| Queue.NewQueue | internal/queue/queue.go:38-46 | A new queue is empty, satisfies the invariant and carries the given name, lease and limit |
| Queue.Publish | internal/queue/queue.go:64-82 | A failed entropy read returns the error and changes nothing; otherwise the id is the base64url of the random bytes, and a never-delivered message with that id joins the tail of pending, with the in-flight and dead-letter collections unchanged |
| Queue.FirstDeliverable | internal/queue/queue.go:91-100 | The index of the first pending message that a claim can still deliver: every message before it is over the limit once bumped, and the one at the index is not |
| Queue.Claim | internal/queue/queue.go:85-112 | Delivers iff some pending message can still be delivered. The delivered message is the first such, with one more delivery and a lease until now + lease, within the limit, and it is leased under its id. Otherwise pending is emptied, in-flight is unchanged, and the outcome is the timeout exactly when the deadline has passed. With pending empty, the queue is left untouched |
| Queue.Ack | internal/queue/queue.go:114-123 | Succeeds iff the id is in flight and then removes exactly that entry; on failure the queue is unchanged |
| Queue.Stats | internal/queue/queue.go:125-133 | Reports the sizes of pending, in-flight and dead-letter; StatsCountMessages shows that in a valid queue they add up to the number of distinct messages held |
| Queue.Reclaim | internal/queue/queue.go:150-156 | Takes exactly one entry out of flight and appends it to dead-letter when its count is over the limit, otherwise to pending, leaving the other tail and the configuration unchanged |
| Queue.SweepScan | internal/queue/queue.go:145-160 | The scan never reports more than the batch size moved |
| Queue.SweepScanFrame | internal/queue/queue.go:145-150 | The scan only takes entries out of flight, and only expired ones. The entries it keeps are unchanged, and so is the configuration |
| Queue.SweepScanShrinks | internal/queue/queue.go:149-157 | In-flight shrinks by exactly the number of entries the scan reports moving |
| Queue.SweepScanMoves | internal/queue/queue.go:150-157 | Pending and dead-letter keep their old contents as a prefix, and together they grow by exactly the number of entries moved |
| Queue.SweepScanAppends | internal/queue/queue.go:149-156 | Entries appended to pending are expired and within the limit; entries appended to dead-letter are expired and over it |
| Queue.SweepScanAppendsFromFlight | internal/queue/queue.go:149-156 | Each entry appended to pending or dead-letter is the very message that was in flight under its id, with payload and delivery count unchanged, and it is no longer in flight |
| Queue.SweepScanComplete | internal/queue/queue.go:145-149 | Unless the batch ran out, no scanned id is left in flight with an expired lease |
| Queue.SweepScanKeepsDeadLetter | internal/queue/queue.go:151-152 | While every lease is within the limit, the scan appends nothing to dead-letter |
| Queue.RequeueExpired | internal/queue/queue.go:139-160 | One tick moves at most 100 entries and conserves the total. In-flight shrinks by the number moved. Pending and dead-letter keep their old contents as a prefix, so a tick only appends. Kept leases are unchanged, and unexpired leases are kept. A full scan under the batch size leaves nothing expired. With all leases within the limit, every moved entry goes to pending. In a queue whose in-flight map is keyed by message id, each appended entry is the in-flight message itself, unchanged, and has left flight |
| QueueProperties.StatsCountMessages | internal/queue/queue.go:128-132 | In a valid queue the three counts add up to the number of distinct message ids held |
| QueueProperties.PublishPreservesValid | internal/queue/queue.go:71-81 | A publish with a fresh id keeps the invariant and adds exactly that id; a failed one changes nothing |
| QueueProperties.ClaimPreservesValid | internal/queue/queue.go:90-103 | Claim keeps the invariant, the set of held ids and the total |
| QueueProperties.AckPreservesValid | internal/queue/queue.go:118-121 | A successful ack keeps the invariant and removes exactly the acked id; a failed one changes nothing |
| QueueProperties.ReclaimPreservesValid | internal/queue/queue.go:150-156 | Taking an in-flight entry out to either tail keeps the invariant and the held ids |
| QueueProperties.SweepPreservesValid | internal/queue/queue.go:145-158 | The expiry scan keeps the invariant and the set of held ids |
| QueueProperties.DeadLetterPrefix | internal/queue/queue.go:91-99 | Dead-lettering the bumped head and then the bumped next k - 1 messages appends the same as dead-lettering the bumped first k in order |
| QueueProperties.ClaimDeliversFirstDeliverable | internal/queue/queue.go:90-102 | With the first deliverable message at index k: the k messages before it are bumped and dead-lettered in order, it is bumped, leased and returned, and the rest of pending keeps its order |
| QueueProperties.ClaimDrainsUndeliverable | internal/queue/queue.go:90-108 | With no deliverable message, every pending message is bumped and dead-lettered in order, and the call times out or waits |
| QueueProperties.ClaimsFollowPublishOrder | internal/queue/queue.go:91-102 | While all pending messages are deliverable, n successive claims return the first n pending messages in order, each with one more delivery |
| QueueProperties.FifoUnderNoContention | internal/queue/queue.go:78-102 | When the delivery limit is at least 1, two messages published into an empty queue are claimed in publish order |
| QueueProperties.FifoFailsAtLimitZero | internal/queue/queue.go:91-100 | When the delivery limit is 0 or less, the first claim after two publishes into an empty queue delivers nothing: both messages, counted once, are dead-lettered in publish order |
| QueueProperties.AckTwiceFails | internal/queue/queue.go:118-121 | A second ack of the same id fails |
| QueueProperties.TickPreservesValid | internal/queue/queue.go:139-160 | A whole tick keeps the invariant, the set of held ids and the total |
| QueueProperties.PublishStepConserves | internal/queue/queue.go:64-82 | A publish with a fresh id keeps the invariant and raises the total by the messages it published: one, or none when the entropy read fails |
| QueueProperties.ClaimStepConserves | internal/queue/queue.go:85-112 | A claim keeps the invariant and the total |
| QueueProperties.AckStepConserves | internal/queue/queue.go:114-123 | An ack keeps the invariant and lowers the total by the messages it acked: one on success, none on failure |
| QueueProperties.TickStepConserves | internal/queue/queue.go:139-160 | A tick keeps the invariant and the total |
| QueueProperties.StepPreservesValid | internal/queue/queue.go:64-160 | Each operation keeps the invariant, and the total changes by the publishes minus the acks |
| QueueProperties.RunConservesMessages | internal/queue/queue.go:64-160 | From a valid queue, over any run with fresh ids, the final total plus the acked messages equals the initial total plus the published ones |
| QueueProperties.RunKeepsLeasesBounded | internal/queue/queue.go:97-101 | From a queue whose leases are within the delivery limit (every new queue), no run leaves a leased message over the limit |
| QueueProperties.SweepDeadLetterBranchUnreachable | internal/queue/queue.go:151-152 | In every state reachable from a new queue, the sweep's dead-letter branch never fires |
| Broker.NewBroker | internal/broker/broker.go:17-23 | A new broker has no queues and the given configuration |
| Broker.GetQueue | internal/broker/broker.go:25-36 | A registered name returns its queue and changes nothing. An unknown name registers exactly one fresh, empty, valid queue with the broker's lease and limit |
| Broker.Publish | internal/broker/broker.go:38-40 | Returns the queue's publish result on the looked-up queue, stores its new state under the name, and leaves every other queue unchanged |
| Broker.Claim | internal/broker/broker.go:42-44 | Returns the queue's claim outcome on the looked-up queue, stores its new state under the name, and leaves every other queue unchanged |
| Broker.Ack | internal/broker/broker.go:46-48 | Returns the queue's ack result on the looked-up queue, stores its new state under the name, and leaves every other queue unchanged |
| Broker.Stats | internal/broker/broker.go:54-56 | A registered name gives its queue's counts with no change. A never-seen name gives zero counts and registers a fresh queue with the broker's lease and limit under it, and nothing else. No other queue changes |
| Broker.Tick | internal/queue/queue.go:49-50 | A tick sweeps only a registered queue (each has its own goroutine) and changes nothing for an unknown name |
| Broker.GetQueueIdempotent | internal/broker/broker.go:29-35 | A second lookup of the same name finds the same queue and registers nothing more |
| Broker.ApplyNeverForgets | internal/broker/broker.go:25-56 | No single operation unregisters a name |
| Broker.RunNeverForgets | internal/broker/broker.go:25-56 | No sequence of operations unregisters a name |
| Broker.GetQueueKeepsConsistent | internal/broker/broker.go:31-34 | A lookup keeps the broker consistent, and the queue it finds carries the name looked up, the broker's configuration and bounded leases |
| Broker.PublishKeepsConsistent | internal/broker/broker.go:38-40 | A publish keeps every queue filed under its own name, with the broker's configuration and bounded leases |
| Broker.ClaimKeepsConsistent | internal/broker/broker.go:42-44 | A claim keeps that consistency |
| Broker.AckKeepsConsistent | internal/broker/broker.go:46-48 | An ack keeps that consistency |
| Broker.StatsKeepsConsistent | internal/broker/broker.go:54-56 | A stats call, which may register a new queue, keeps that consistency |
| Broker.TickKeepsConsistent | internal/queue/queue.go:139-160 | A tick of any queue keeps that consistency |
| Broker.ApplyKeepsConsistent | internal/broker/broker.go:31-34 | Each operation keeps every queue filed under its own name, with the broker's configuration and all leases within the limit |
| Broker.RunKeepsConsistent | internal/broker/broker.go:25-56 | Every broker reachable by a run keeps that consistency |
| Broker.ReachableTickNeverDeadLetters | internal/queue/queue.go:149-156 | In every reachable broker, a tick of any queue dead-letters nothing |
| Auth.NewKeyStore | internal/auth/auth.go:25-29 | A new store holds no keys |
| Auth.CreateKey | internal/auth/auth.go:31-61 | A failed secret draw, then a failed key-id draw, are the errors, and each changes nothing. Otherwise the record (key id, base64url of the secret's digest, tenant) is stored under the key id and `keyId.secret` is returned |
| Auth.ValidateKey | internal/auth/auth.go:63-98 | A token without '.' or with an unknown key id is rejected; an accepted token returns its key id and the STORED tenant |
| Auth.RevokeKey | internal/auth/auth.go:101-109 | Succeeds iff the id is stored and then removes exactly it; an unknown id fails with the store unchanged |
| Auth.CutToken | internal/auth/auth.go:59-65 | Cutting an issued token at its first '.' gives back the key id and the secret text |
| Auth.ValidateIffDigestMatches | internal/auth/auth.go:71-96 | A token is accepted iff its key id is stored, its secret decodes, and the secret's digest equals the stored digest. The result is then the stored identity |
| Auth.CreateThenValidate | internal/auth/auth.go:46-95 | The token CreateKey returns validates against the new store to the new key id and the given tenant |
| Auth.CreateKeepsOtherTokens | internal/auth/auth.go:53-55 | Issuing a key changes the verdict on no token naming a different key id |
| Auth.RevokeRejects | internal/auth/auth.go:104-107 | After revocation no token naming the id validates, and tokens naming other ids keep their verdict |
| Auth.StoreStaysWellFiled | internal/auth/auth.go:54 | Creating and revoking keys keep every record filed under its own key id |
| AuthenticatedBroker.ValidateAndGetQueueName | internal/broker/authanticated-broker.go:26-35 | Fails with the unauthorized error iff the key does not validate, and otherwise returns the validated tenant + ":" + queue name |
| AuthenticatedBroker.Publish | internal/broker/authanticated-broker.go:37-43 | A rejected key gives the unauthorized error and changes nothing. A valid key publishes to the tenant's scoped queue, touches no other queue and passes queue errors up. The key store never changes |
| AuthenticatedBroker.Claim | internal/broker/authanticated-broker.go:45-51 | A rejected key gives the unauthorized error and changes nothing. A valid key runs a claim with a wait of waitSeconds seconds on the tenant's scoped queue only |
| AuthenticatedBroker.Ack | internal/broker/authanticated-broker.go:53-59 | A rejected key gives the unauthorized error and changes nothing. A valid key acks on the tenant's scoped queue only and passes queue errors up |
| AuthenticatedBroker.Stats | internal/broker/authanticated-broker.go:61-67 | A rejected key gives zero counts with the unauthorized error and changes nothing. A valid key gives the counts of the tenant's scoped queue, leaves that queue as the lookup found it, and touches no other |
| AuthenticatedBroker.ScopedNamesInjective | internal/broker/authanticated-broker.go:33 | While tenant ids contain no ':', equal scoped names imply equal tenant and equal queue name, and conversely |
| AuthenticatedBroker.TenantsCanCollide | internal/broker/authanticated-broker.go:33 | Tenant "a" with queue "b:c" and tenant "a:b" with queue "c" get the same scoped name |
| AuthenticatedBroker.OtherTenantsUntouched | internal/broker/authanticated-broker.go:26-67 | No call made with a tenant's key changes a queue of another tenant, provided tenant ids have no ':' |
| Server.GetApiKey | internal/server/server.go:25-40 | Accepts iff the header has a space, the text before the first space is exactly "ApiKey", and the rest is not all white space. An accepted key is that rest, trimmed and non-empty. Every rejection carries the empty key |
| Server.GetApiKeyOfPaddedKey | internal/server/server.go:28-39 | `ApiKey` + ' ' + white space + key + white space yields exactly the key, for a non-empty key with no white space at either end |
| Server.OtherSchemeRejected | internal/server/server.go:30-31 | Any other first word is rejected with the empty key |
| Server.TokenIsTrimmed | internal/auth/auth.go:57-59 | An issued token never starts or ends with white space |
| Server.TrimmedKeyParses | internal/server/server.go:25-40 | `ApiKey ` + a trimmed non-empty key is accepted with exactly that key |
| Server.IssuedTokenParses | internal/server/server.go:25-40 | The header `ApiKey ` + any token CreateKey can issue is accepted with exactly that token as the key |
| Server.IssuedKeyReachesTenantQueue | internal/server/server.go:25-40 | An issued token sent as `ApiKey <token>` parses back intact and validates to `tenant:queue` for its tenant |

## Left out

- Blocking and wake-up: the mutexes, `sync.Cond` and its `Signal`/`Wait` are not modelled. Claim is one evaluation of its loop under the lock, and `WouldBlock` stands for the wait.
- Queue.Claim: one instant `now` serves both for the deadline test and for the new lease (the code reads the clock separately), and the deadline is a parameter fixed when the call began.
- The ticker goroutine and its 5-second period: a tick is a step taking `now` and the map iteration order.
- Queue.RequeueExpired: the scan order is any sequence of ids. Go visits each key of the map once; the model also accepts repeats and ids not in flight, which are skipped, and orders that leave out in-flight ids. The sweep is shown complete (SweepScanComplete) only for orders that list every in-flight id.
- Queue.Publish: the id is not checked for freshness, exactly as in the code. Freshness is a precondition of the invariant lemmas only. The 16-byte length of the random id is not modelled.
- Auth.CreateKey: the 16-byte secret and 8-byte key id lengths are not modelled; any byte strings are accepted. A key id that collides with a stored one replaces that record, as the code's map assignment does.
- Auth.ValidateKey: SHA-256 is an uninterpreted function, and `hmac.Equal` is plain equality; its constant-time behaviour is not expressible here.
- AuthenticatedBroker.Claim: does not model the 64-bit wrap-around of `time.Duration(waitSeconds) * time.Second` or of the deadline, because the model's integers are unbounded.
- Queue.Claim: the `int` delivery count is unbounded, so its 64-bit overflow after 2^63 deliveries is not modelled.
- `CreatedAt` timestamps, payload contents and `context.Context` parameters carry no behaviour and are dropped.
- Strings are sequences of Unicode code points. Go strings are byte strings, so invalid UTF-8 in a header is not modelled.
- The HTTP handlers of server.go, internal/utils/utils.go and main.go (wiring, listening, shutdown) are not part of this model.

=== FILE: auth.dfy ===
/** The API-key store (internal/auth/auth.go). A key is issued as the token
    `keyId + "." + secret`, both parts unpadded base64url text of random bytes;
    the store keeps, under the key id, the base64url text of the secret's
    SHA-256 digest and the tenant the key belongs to. The random bytes are
    parameters (`None` when the entropy source fails) and SHA-256 is an
    arbitrary function parameter: no property here depends on what it
    computes. The store's read-write lock is left out. */
module Auth {
  import opened Common
  import Strings
  import Base64Url

  /** SHA-256, as an uninterpreted function of the secret's bytes. */
  type Hasher = seq<byte> -> seq<byte>

  datatype KeyRecord = KeyRecord(keyId: string, hash: string, tenantId: string)

  datatype KeyStore = KeyStore(keys: map<string, KeyRecord>)

  /** What a successful validation returns: the key id and its tenant. */
  datatype Identity = Identity(keyId: string, tenantId: string)

  datatype AuthError = SecretGenerationFailed | KeyIdGenerationFailed | KeyNotFound

  /** The store after an operation, together with what the operation returned. */
  datatype Change<+T> = Change(store: KeyStore, out: T)

  /** Every record is filed under its own key id. */
  predicate WellFiled(s: KeyStore) {
    forall kid :: kid in s.keys ==> s.keys[kid].keyId == kid
  }

  /** `NewAuthManager`: no keys. */
  function NewKeyStore(): (s: KeyStore)
    ensures s.keys == map[] && WellFiled(s)
  {
    KeyStore(map[])
  }

  /** The token a key is handed out as. */
  function Token(keyId: string, secretText: string): string {
    keyId + "." + secretText
  }

  /** `CreateKey`: the secret is drawn first and the key id second; if either
      draw fails nothing is stored. Otherwise the record of the digest and
      tenant is stored under the key id (replacing any record already there)
      and the token is returned. */
  function CreateKey(s: KeyStore, tenantId: string, secret: Option<seq<byte>>, keyIdBytes: Option<seq<byte>>, sha: Hasher): (r: Change<Result<string, AuthError>>)
    ensures secret.None? ==> r == Change(s, Err(SecretGenerationFailed))
    ensures secret.Some? && keyIdBytes.None? ==> r == Change(s, Err(KeyIdGenerationFailed))
    ensures r.out.Ok? <==> secret.Some? && keyIdBytes.Some?
    ensures r.out.Ok? ==>
      var kid := Base64Url.Encode(keyIdBytes.value);
      && r.out.value == Token(kid, Base64Url.Encode(secret.value))
      && r.store.keys == s.keys[kid := KeyRecord(kid, Base64Url.Encode(sha(secret.value)), tenantId)]
  {
    match secret
    case None => Change(s, Err(SecretGenerationFailed))
    case Some(sec) =>
      match keyIdBytes
      case None => Change(s, Err(KeyIdGenerationFailed))
      case Some(kidBytes) =>
        var kid := Base64Url.Encode(kidBytes);
        var record := KeyRecord(kid, Base64Url.Encode(sha(sec)), tenantId);
        Change(KeyStore(s.keys[kid := record]), Ok(Token(kid, Base64Url.Encode(sec))))
  }

  /** `ValidateKey`: the token is cut at its first '.'; the part after it must
      decode to the secret, the part before it must be a stored key id, the
      stored digest text must decode, and the secret's digest must equal it.
      Any failure is `None`, Go's `("", "", false)`. */
  function ValidateKey(s: KeyStore, token: string, sha: Hasher): (r: Option<Identity>)
    ensures '.' !in token ==> r.None?
    ensures Strings.Cut(token, '.').before !in s.keys ==> r.None?
    ensures r.Some? ==>
      && r.value.keyId == Strings.Cut(token, '.').before
      && r.value.keyId in s.keys
      && r.value.tenantId == s.keys[r.value.keyId].tenantId
  {
    var c := Strings.Cut(token, '.');
    if !c.found then None
    else
      match Base64Url.Decode(c.after)
      case None => None
      case Some(sec) =>
        if c.before !in s.keys then None
        else
          var record := s.keys[c.before];
          match Base64Url.Decode(record.hash)
          case None => None
          case Some(expected) =>
            if sha(sec) == expected then Some(Identity(c.before, record.tenantId)) else None
  }

  /** `RevokeKey`: fails with "key not found" for an unknown id and changes
      nothing; otherwise deletes exactly that record. */
  function RevokeKey(s: KeyStore, kid: string): (r: Change<Outcome<AuthError>>)
    ensures r.out.Pass? <==> kid in s.keys
    ensures r.out.Fail? ==> r == Change(s, Fail(KeyNotFound))
    ensures r.out.Pass? ==> r.store.keys.Keys == s.keys.Keys - {kid}
    ensures forall k :: k in r.store.keys ==> k in s.keys && r.store.keys[k] == s.keys[k]
  {
    if kid !in s.keys then Change(s, Fail(KeyNotFound))
    else Change(KeyStore(s.keys - {kid}), Pass)
  }

  // ---------------------------------------------------------------------------
  // Properties

  /** A token splits back into its key id and secret text, because the key id,
      being base64url text, contains no '.'. */
  lemma CutToken(kidBytes: seq<byte>, secretText: string)
    ensures var kid := Base64Url.Encode(kidBytes);
      Strings.Cut(Token(kid, secretText), '.') == Strings.CutResult(kid, secretText, true)
  {
    var kid := Base64Url.Encode(kidBytes);
    Base64Url.EncodeHasNoDot(kidBytes);
    Strings.CutJoin(kid, '.', secretText);
  }

  /** Validation against the token's two parts: a token `kid.secretText`
      with a dot-free key id is accepted exactly when the key id is stored,
      the secret text decodes, and the digest of the decoded secret is what
      the stored digest text decodes to. The identity returned is the stored
      one, whatever the caller presents. */
  lemma ValidateIffDigestMatches(s: KeyStore, kid: string, secretText: string, sha: Hasher)
    requires '.' !in kid
    ensures var r := ValidateKey(s, Token(kid, secretText), sha);
      && (r.Some? <==>
            && kid in s.keys
            && Base64Url.Decode(secretText).Some?
            && Base64Url.Decode(s.keys[kid].hash) == Some(sha(Base64Url.Decode(secretText).value)))
      && (r.Some? ==> r.value == Identity(kid, s.keys[kid].tenantId))
  {
    Strings.CutJoin(kid, '.', secretText);
  }

  /** Round trip: the token CreateKey returns validates, against the store it
      returns, to the new key id and the tenant the key was created for. */
  lemma CreateThenValidate(s: KeyStore, tenantId: string, secret: seq<byte>, keyIdBytes: seq<byte>, sha: Hasher)
    ensures var r := CreateKey(s, tenantId, Some(secret), Some(keyIdBytes), sha);
      && r.out.Ok?
      && ValidateKey(r.store, r.out.value, sha) == Some(Identity(Base64Url.Encode(keyIdBytes), tenantId))
  {
    var kid := Base64Url.Encode(keyIdBytes);
    CutToken(keyIdBytes, Base64Url.Encode(secret));
    Base64Url.DecodeEncode(secret);
    Base64Url.DecodeEncode(sha(secret));
  }

  /** Issuing a key under a new id changes the verdict on no other token. */
  lemma CreateKeepsOtherTokens(s: KeyStore, tenantId: string, secret: seq<byte>, keyIdBytes: seq<byte>, sha: Hasher, token: string)
    requires Strings.Cut(token, '.').before != Base64Url.Encode(keyIdBytes)
    ensures ValidateKey(CreateKey(s, tenantId, Some(secret), Some(keyIdBytes), sha).store, token, sha) == ValidateKey(s, token, sha)
  {
  }

  /** After a key id is revoked, no token naming that id validates, and every
      token naming another id gets the same verdict as before. */
  lemma RevokeRejects(s: KeyStore, kid: string, token: string, sha: Hasher)
    ensures var s' := RevokeKey(s, kid).store;
      && (Strings.Cut(token, '.').before == kid ==> ValidateKey(s', token, sha).None?)
      && (Strings.Cut(token, '.').before != kid ==> ValidateKey(s', token, sha) == ValidateKey(s, token, sha))
  {
  }

  /** Creating and revoking keys keeps every record filed under its own id. */
  lemma StoreStaysWellFiled(s: KeyStore, tenantId: string, secret: Option<seq<byte>>, keyIdBytes: Option<seq<byte>>, sha: Hasher, kid: string)
    requires WellFiled(s)
    ensures WellFiled(CreateKey(s, tenantId, secret, keyIdBytes, sha).store)
    ensures WellFiled(RevokeKey(s, kid).store)
  {
  }
}

=== FILE: authenticated_broker.dfy ===
/** The tenant-scoping wrapper (internal/broker/authanticated-broker.go).
    Every operation first validates the API key; a rejected key yields the
    unauthorized error and touches nothing. An accepted key names a tenant,
    and the caller's queue name is scoped to it as `tenant + ":" + name`
    before the call is handed to the registry. */
module AuthenticatedBroker {
  import opened Common
  import opened Queue
  import Strings
  import Auth
  import Broker

  datatype AuthBroker = AuthBroker(broker: Broker.Broker, auth: Auth.KeyStore)

  /** `ErrUnauthorized`, or an error passed up from the queue. */
  datatype BrokerError = Unauthorized | QueueFailure(error: QueueError)

  /** The wrapper after an operation, together with what the operation returned. */
  datatype Answer<+T> = Answer(state: AuthBroker, out: T)

  /** The registry name of a tenant's queue. */
  function FullQueueName(tenantId: string, queueName: string): string {
    tenantId + ":" + queueName
  }

  /** `ValidateAndGetQueueName`: the scoped name for the key's tenant, or
      the unauthorized error when the key does not validate. */
  function ValidateAndGetQueueName(ab: AuthBroker, apiKey: string, queueName: string, sha: Auth.Hasher): (r: Result<string, BrokerError>)
    ensures r.Err? <==> Auth.ValidateKey(ab.auth, apiKey, sha).None?
    ensures r.Err? ==> r.error == Unauthorized
    ensures r.Ok? ==> r.value == FullQueueName(Auth.ValidateKey(ab.auth, apiKey, sha).value.tenantId, queueName)
  {
    match Auth.ValidateKey(ab.auth, apiKey, sha)
    case None => Err(Unauthorized)
    case Some(identity) => Ok(FullQueueName(identity.tenantId, queueName))
  }

  /** The wrapper with its registry replaced. */
  function WithBroker(ab: AuthBroker, b: Broker.Broker): AuthBroker {
    ab.(broker := b)
  }

  /** The tenant an API key validates to, if any. */
  function TenantOf(ab: AuthBroker, apiKey: string, sha: Auth.Hasher): Option<string> {
    match Auth.ValidateKey(ab.auth, apiKey, sha)
    case None => None
    case Some(identity) => Some(identity.tenantId)
  }

  /** `AuthenticatedBroker.Publish`: with a valid key, a publish to the
      tenant's scoped queue, touching no other queue; queue errors are passed
      up. */
  function Publish(ab: AuthBroker, apiKey: string, queueName: string, payload: seq<byte>, entropy: Option<seq<byte>>, sha: Auth.Hasher): (r: Answer<Result<MessageId, BrokerError>>)
    ensures r.state.auth == ab.auth
    ensures TenantOf(ab, apiKey, sha).None? ==> r == Answer(ab, Err(Unauthorized))
    ensures TenantOf(ab, apiKey, sha).Some? ==>
      var name := FullQueueName(TenantOf(ab, apiKey, sha).value, queueName);
      var t := Queue.Publish(Broker.GetQueue(ab.broker, name).out, payload, entropy);
      && Broker.OnlyTouches(ab.broker, r.state.broker, name)
      && r.state.broker.queues[name] == t.queue
      && (t.out.Ok? ==> r.out == Ok(t.out.value))
      && (t.out.Err? ==> r.out == Err(QueueFailure(t.out.error)))
  {
    match ValidateAndGetQueueName(ab, apiKey, queueName, sha)
    case Err(e) => Answer(ab, Err(e))
    case Ok(name) =>
      var t := Broker.Publish(ab.broker, name, payload, entropy);
      var out := match t.out
        case Ok(id) => Ok(id)
        case Err(e) => Err(QueueFailure(e));
      Answer(WithBroker(ab, t.broker), out)
  }

  /** The claim deadline for a wait of `waitSeconds` seconds starting at
      `start`, as Go's `time.Duration(waitSeconds) * time.Second`. */
  function ClaimDeadline(start: Time, waitSeconds: int): Time
  {
    start + waitSeconds * Second
  }

  /** `AuthenticatedBroker.Claim`: with a valid key, one evaluation at `now`
      of a Claim on the tenant's scoped queue whose wait of `waitSeconds`
      seconds began at `start`. */
  function Claim(ab: AuthBroker, apiKey: string, queueName: string, waitSeconds: int, start: Time, now: Time, sha: Auth.Hasher): (r: Answer<Result<ClaimOutcome, BrokerError>>)
    ensures r.state.auth == ab.auth
    ensures TenantOf(ab, apiKey, sha).None? ==> r == Answer(ab, Err(Unauthorized))
    ensures TenantOf(ab, apiKey, sha).Some? ==>
      var name := FullQueueName(TenantOf(ab, apiKey, sha).value, queueName);
      var t := Queue.Claim(Broker.GetQueue(ab.broker, name).out, now, ClaimDeadline(start, waitSeconds));
      && Broker.OnlyTouches(ab.broker, r.state.broker, name)
      && r.state.broker.queues[name] == t.queue
      && r.out == Ok(t.out)
  {
    match ValidateAndGetQueueName(ab, apiKey, queueName, sha)
    case Err(e) => Answer(ab, Err(e))
    case Ok(name) =>
      var t := Broker.Claim(ab.broker, name, now, ClaimDeadline(start, waitSeconds));
      Answer(WithBroker(ab, t.broker), Ok(t.out))
  }

  /** `AuthenticatedBroker.Ack`: with a valid key, an ack on the tenant's
      scoped queue. */
  function Ack(ab: AuthBroker, apiKey: string, queueName: string, messageId: MessageId, sha: Auth.Hasher): (r: Answer<Outcome<BrokerError>>)
    ensures r.state.auth == ab.auth
    ensures TenantOf(ab, apiKey, sha).None? ==> r == Answer(ab, Fail(Unauthorized))
    ensures TenantOf(ab, apiKey, sha).Some? ==>
      var name := FullQueueName(TenantOf(ab, apiKey, sha).value, queueName);
      var t := Queue.Ack(Broker.GetQueue(ab.broker, name).out, messageId);
      && Broker.OnlyTouches(ab.broker, r.state.broker, name)
      && r.state.broker.queues[name] == t.queue
      && (t.out.Pass? ==> r.out == Pass)
      && (t.out.Fail? ==> r.out == Fail(QueueFailure(t.out.error)))
  {
    match ValidateAndGetQueueName(ab, apiKey, queueName, sha)
    case Err(e) => Answer(ab, Fail(e))
    case Ok(name) =>
      var t := Broker.Ack(ab.broker, name, messageId);
      var out := match t.out
        case Pass => Pass
        case Fail(e) => Fail(QueueFailure(e));
      Answer(WithBroker(ab, t.broker), out)
  }

  /** `AuthenticatedBroker.Stats`: with a valid key, the counts of the
      tenant's scoped queue (registering it if new); on a rejected key the
      zero counts come back together with the unauthorized error. */
  function Stats(ab: AuthBroker, apiKey: string, queueName: string, sha: Auth.Hasher): (r: Answer<(QueueStats, Outcome<BrokerError>)>)
    ensures r.state.auth == ab.auth
    ensures TenantOf(ab, apiKey, sha).None? ==> r == Answer(ab, (QueueStats(0, 0, 0), Fail(Unauthorized)))
    ensures TenantOf(ab, apiKey, sha).Some? ==>
      var name := FullQueueName(TenantOf(ab, apiKey, sha).value, queueName);
      && Broker.OnlyTouches(ab.broker, r.state.broker, name)
      && r.state.broker.queues[name] == Broker.GetQueue(ab.broker, name).out
      && r.out == (Queue.Stats(Broker.GetQueue(ab.broker, name).out), Pass)
  {
    match ValidateAndGetQueueName(ab, apiKey, queueName, sha)
    case Err(_) => Answer(ab, (QueueStats(0, 0, 0), Fail(Unauthorized)))
    case Ok(name) =>
      var t := Broker.Stats(ab.broker, name);
      Answer(WithBroker(ab, t.broker), (t.out, Pass))
  }

  /** One call a tenant can make through the wrapper. */
  datatype Call =
    | PublishCall(payload: seq<byte>, entropy: Option<seq<byte>>)
    | ClaimCall(waitSeconds: int, start: Time, now: Time)
    | AckCall(messageId: MessageId)
    | StatsCall

  function Perform(ab: AuthBroker, apiKey: string, queueName: string, call: Call, sha: Auth.Hasher): AuthBroker {
    match call
    case PublishCall(payload, entropy) => Publish(ab, apiKey, queueName, payload, entropy, sha).state
    case ClaimCall(waitSeconds, start, now) => Claim(ab, apiKey, queueName, waitSeconds, start, now, sha).state
    case AckCall(messageId) => Ack(ab, apiKey, queueName, messageId, sha).state
    case StatsCall => Stats(ab, apiKey, queueName, sha).state
  }

  // ---------------------------------------------------------------------------
  // Properties

  /** While tenant ids contain no ':', the scoped name determines both the
      tenant and the queue name, so two tenants never share a queue. */
  lemma ScopedNamesInjective(t1: string, q1: string, t2: string, q2: string)
    requires ':' !in t1 && ':' !in t2
    ensures FullQueueName(t1, q1) == FullQueueName(t2, q2) <==> t1 == t2 && q1 == q2
  {
    Strings.CutJoin(t1, ':', q1);
    Strings.CutJoin(t2, ':', q2);
  }

  /** Without that restriction scoping is not injective: tenant "a" with
      queue "b:c" and tenant "a:b" with queue "c" land on the same queue. */
  lemma TenantsCanCollide()
    ensures FullQueueName("a", "b:c") == FullQueueName("a:b", "c")
  {
  }

  /** Whatever a tenant's key does, the queues of every other tenant are
      untouched, provided tenant ids contain no ':'; with a rejected key
      nothing at all changes. */
  lemma OtherTenantsUntouched(ab: AuthBroker, apiKey: string, queueName: string, call: Call, sha: Auth.Hasher, other: string, otherQueue: string)
    requires ':' !in other
    requires TenantOf(ab, apiKey, sha).Some? ==>
      ':' !in TenantOf(ab, apiKey, sha).value && other != TenantOf(ab, apiKey, sha).value
    requires FullQueueName(other, otherQueue) in ab.broker.queues
    ensures var name := FullQueueName(other, otherQueue);
      var b' := Perform(ab, apiKey, queueName, call, sha).broker;
      name in b'.queues && b'.queues[name] == ab.broker.queues[name]
  {
    if TenantOf(ab, apiKey, sha).Some? {
      ScopedNamesInjective(other, otherQueue, TenantOf(ab, apiKey, sha).value, queueName);
    }
  }
}

=== FILE: base64url.dfy ===
/** The unpadded URL-safe base64 codec of section 5 of RFC 4648 (Go's
    `base64.RawURLEncoding`), used for message ids, key ids, secrets and stored
    hashes. Encoding regroups every three octets into four 6-bit values and maps
    each through the URL-safe alphabet; a trailing group of one or two octets
    becomes two or three characters and no '=' padding is written. Decoding
    follows Go's lenient decoder: carriage returns and line feeds are skipped,
    any other character outside the alphabet (including '=') is an error, a
    final group of a single character is an error, and unused low bits of the
    last character are ignored. */
module Base64Url {
  import opened Common

  /** A 6-bit value, the index of one alphabet character. */
  type Sextet = x: int | 0 <= x < 64

  /** Membership in the URL-safe alphabet `A-Z a-z 0-9 - _`. */
  predicate IsAlphabetChar(c: char) {
    ('A' <= c <= 'Z') || ('a' <= c <= 'z') || ('0' <= c <= '9') || c == '-' || c == '_'
  }

  /** The alphabet character of index `v` (table 2 of RFC 4648). */
  function EncodeSextet(v: Sextet): (c: char)
    ensures IsAlphabetChar(c)
  {
    if v < 26 then ('A' as int + v) as char
    else if v < 52 then ('a' as int + (v - 26)) as char
    else if v < 62 then ('0' as int + (v - 52)) as char
    else if v == 62 then '-'
    else '_'
  }

  /** The index of an alphabet character; `None` for every other character. */
  function DecodeSextet(c: char): (r: Option<Sextet>)
    ensures r.Some? <==> IsAlphabetChar(c)
    ensures r.Some? ==> EncodeSextet(r.value) == c
  {
    if 'A' <= c <= 'Z' then Some(c as int - 'A' as int)
    else if 'a' <= c <= 'z' then Some(c as int - 'a' as int + 26)
    else if '0' <= c <= '9' then Some(c as int - '0' as int + 52)
    else if c == '-' then Some(62)
    else if c == '_' then Some(63)
    else None
  }

  /** The alphabet is a bijection between sextets and alphabet characters. */
  lemma DecodeEncodeSextet(v: Sextet)
    ensures DecodeSextet(EncodeSextet(v)) == Some(v)
  {
  }

  /** Regroups octets into 6-bit values, most significant bits first; a final
      partial group is padded with zero bits up to a whole sextet. */
  function Split(b: seq<byte>): (v: seq<Sextet>)
    ensures |v| == (4 * |b| + 2) / 3
    decreases |b|
  {
    if |b| == 0 then []
    else if |b| == 1 then [b[0] / 4, b[0] % 4 * 16]
    else if |b| == 2 then [b[0] / 4, b[0] % 4 * 16 + b[1] / 16, b[1] % 16 * 4]
    else [b[0] / 4, b[0] % 4 * 16 + b[1] / 16, b[1] % 16 * 4 + b[2] / 64, b[2] % 64] + Split(b[3..])
  }

  /** Regroups 6-bit values back into octets. A final group of one sextet
      carries fewer than eight bits and is rejected; the unused low bits of a
      final group of two or three sextets are dropped, as Go's non-strict
      decoder does. */
  function Regroup(v: seq<Sextet>): (r: Option<seq<byte>>)
    ensures r.Some? <==> |v| % 4 != 1
    ensures r.Some? ==> |r.value| == 3 * |v| / 4
    decreases |v|
  {
    if |v| == 0 then Some([])
    else if |v| == 1 then None
    else
      var b0: byte := v[0] as int * 4 + v[1] / 16;
      if |v| == 2 then Some([b0])
      else
        var b1: byte := v[1] as int % 16 * 16 + v[2] / 4;
        if |v| == 3 then Some([b0, b1])
        else
          var b2: byte := v[2] as int % 4 * 64 + v[3];
          assert 3 * |v| / 4 == 3 * |v[4..]| / 4 + 3 && |v| % 4 == |v[4..]| % 4;
          match Regroup(v[4..])
          case None => None
          case Some(rest) => Some([b0, b1, b2] + rest)
  }

  /** Go's `RawURLEncoding.EncodeToString`. */
  function Encode(b: seq<byte>): (s: string)
    ensures |s| == (4 * |b| + 2) / 3
    ensures forall i :: 0 <= i < |s| ==> IsAlphabetChar(s[i])
  {
    var v := Split(b);
    seq(|v|, i requires 0 <= i < |v| => EncodeSextet(v[i]))
  }

  /** The sextets named by a string, or `None` if some character is outside
      the alphabet. */
  function Sextets(s: string): (r: Option<seq<Sextet>>)
    ensures r.Some? <==> forall i :: 0 <= i < |s| ==> IsAlphabetChar(s[i])
    ensures r.Some? ==> |r.value| == |s| && forall i :: 0 <= i < |s| ==> EncodeSextet(r.value[i]) == s[i]
  {
    if forall i :: 0 <= i < |s| ==> IsAlphabetChar(s[i]) then
      Some(seq(|s|, i requires 0 <= i < |s| => DecodeSextet(s[i]).value))
    else
      None
  }

  predicate IsLineBreak(c: char) {
    c == '\r' || c == '\n'
  }

  /** The input with carriage returns and line feeds removed, which Go's
      decoder skips wherever they occur. */
  function RemoveLineBreaks(s: string): (r: string)
    ensures |r| <= |s|
    ensures forall i :: 0 <= i < |r| ==> !IsLineBreak(r[i])
    ensures (forall i :: 0 <= i < |s| ==> !IsLineBreak(s[i])) ==> r == s
    decreases |s|
  {
    if |s| == 0 then []
    else if IsLineBreak(s[0]) then RemoveLineBreaks(s[1..])
    else [s[0]] + RemoveLineBreaks(s[1..])
  }

  /** Go's `RawURLEncoding.DecodeString`; `None` stands for its error. Line
      breaks are skipped; what is left must consist of alphabet characters and
      must not end in a lone character, and then yields three octets for every
      four characters, rounded down. */
  function Decode(s: string): (r: Option<seq<byte>>)
    ensures var t := RemoveLineBreaks(s);
      r.Some? <==> (forall i :: 0 <= i < |t| ==> IsAlphabetChar(t[i])) && |t| % 4 != 1
    ensures r.Some? ==> |r.value| == 3 * |RemoveLineBreaks(s)| / 4
  {
    match Sextets(RemoveLineBreaks(s))
    case None => None
    case Some(v) => Regroup(v)
  }

  /** A final partial group of one or two octets survives the round trip. */
  lemma {:induction false} RegroupSplitPartial(b: seq<byte>)
    requires 1 <= |b| <= 2
    ensures Regroup(Split(b)) == Some(b)
  {
    var v := Split(b);
    assert v[0] as int * 4 + v[1] / 16 == b[0];
    if |b| == 1 {
      assert b == [b[0]];
    } else {
      assert v[1] as int % 16 * 16 + v[2] / 4 == b[1];
      assert b == [b[0], b[1]];
    }
  }

  /** A whole leading group survives the round trip whenever the rest does. */
  lemma {:induction false} RegroupSplitGroup(b: seq<byte>)
    requires |b| >= 3
    requires Regroup(Split(b[3..])) == Some(b[3..])
    ensures Regroup(Split(b)) == Some(b)
  {
    var v := Split(b);
    assert v[0] as int * 4 + v[1] / 16 == b[0];
    assert v[1] as int % 16 * 16 + v[2] / 4 == b[1];
    assert v[2] as int % 4 * 64 + v[3] == b[2];
    assert v[4..] == Split(b[3..]);
    assert b == [b[0], b[1], b[2]] + b[3..];
  }

  /** Removing line breaks keeps every other character. */
  lemma {:induction false} RemoveLineBreaksKeeps(s: string, c: char)
    requires c in s && !IsLineBreak(c)
    ensures c in RemoveLineBreaks(s)
    decreases |s|
  {
    if s[0] != c {
      assert c in s[1..];
      RemoveLineBreaksKeeps(s[1..], c);
    }
  }

  /** Padding is an error: text holding '=', or any character other than a
      line break outside the alphabet, does not decode. */
  lemma DecodeRejectsForeignChar(s: string, c: char)
    requires c in s && !IsLineBreak(c) && !IsAlphabetChar(c)
    ensures Decode(s).None?
  {
    RemoveLineBreaksKeeps(s, c);
  }

  /** Regrouping undoes splitting, octet group by octet group. */
  lemma {:induction false} RegroupSplit(b: seq<byte>)
    ensures Regroup(Split(b)) == Some(b)
    decreases |b|
  {
    if |b| >= 3 {
      RegroupSplit(b[3..]);
      RegroupSplitGroup(b);
    } else if |b| >= 1 {
      RegroupSplitPartial(b);
    }
  }

  /** Reading the characters of an encoding back gives the sextets it was
      written from. */
  lemma SextetsOfEncode(b: seq<byte>)
    ensures Sextets(Encode(b)) == Some(Split(b))
  {
    var v := Split(b);
    var s := Encode(b);
    assert Sextets(s).Some?;
    var w := Sextets(s).value;
    forall i | 0 <= i < |v|
      ensures w[i] == v[i]
    {
      DecodeEncodeSextet(v[i]);
      assert s[i] == EncodeSextet(v[i]);
      assert w[i] == DecodeSextet(s[i]).value;
    }
    assert w == v;
  }

  /** Round trip: decoding an encoding gives back the original octets. */
  lemma DecodeEncode(b: seq<byte>)
    ensures Decode(Encode(b)) == Some(b)
  {
    var s := Encode(b);
    assert forall i :: 0 <= i < |s| ==> !IsLineBreak(s[i]);
    assert RemoveLineBreaks(s) == s;
    SextetsOfEncode(b);
    RegroupSplit(b);
  }

  /** No encoding contains '.', so '.' can separate two encodings in a token. */
  lemma EncodeHasNoDot(b: seq<byte>)
    ensures '.' !in Encode(b)
  {
  }
}

=== FILE: broker.dfy ===
/** The queue registry (internal/broker/broker.go): a map from full queue name
    to queue, filled lazily on first use and never shrunk. Every operation
    looks the queue up (creating it if needed) and delegates to it; the
    registry's read-write lock is left out, so each operation is a pure
    transition on a `Broker` value. */
module Broker {
  import opened Common
  import opened Queue

  datatype Broker = Broker(queues: map<string, QueueState>, leaseDuration: Duration, maxDelivery: int)

  /** The registry after an operation, together with what the operation returned. */
  datatype Reply<+T> = Reply(broker: Broker, out: T)

  /** `b'` differs from `b` at most in the queue under `name`, which it holds,
      and keeps the configuration new queues are created with. */
  predicate OnlyTouches(b: Broker, b': Broker, name: string) {
    && b'.leaseDuration == b.leaseDuration
    && b'.maxDelivery == b.maxDelivery
    && b'.queues.Keys == b.queues.Keys + {name}
    && forall n :: n in b.queues && n != name ==> b'.queues[n] == b.queues[n]
  }

  /** `NewBroker`: no queues yet. */
  function NewBroker(lease: Duration, maxDelivery: int): (b: Broker)
    ensures b.queues == map[]
    ensures b.leaseDuration == lease && b.maxDelivery == maxDelivery
  {
    Broker(map[], lease, maxDelivery)
  }

  /** `getQueue`: the queue registered under `name`, registering a fresh
      empty queue with the broker's lease and delivery limit the first time
      the name is used. */
  function GetQueue(b: Broker, name: string): (r: Reply<QueueState>)
    ensures OnlyTouches(b, r.broker, name)
    ensures name in r.broker.queues && r.broker.queues[name] == r.out
    ensures name in b.queues ==> r.broker == b && r.out == b.queues[name]
    ensures name !in b.queues ==>
      && Total(r.out) == 0 && Valid(r.out)
      && r.out.name == name && r.out.leaseDuration == b.leaseDuration && r.out.maxDeliveryCount == b.maxDelivery
  {
    if name in b.queues then Reply(b, b.queues[name])
    else
      var q := NewQueue(name, b.leaseDuration, b.maxDelivery);
      Reply(b.(queues := b.queues[name := q]), q)
  }

  /** The registry with the queue under `name` replaced by its new state;
      queues are shared objects in the source, so an operation on the queue
      is seen through the registry. */
  function Store(b: Broker, name: string, q: QueueState): (r: Broker)
    ensures OnlyTouches(b, r, name) && r.queues[name] == q
  {
    b.(queues := b.queues[name := q])
  }

  /** `Broker.Publish`: publishes to the queue under `name`. */
  function Publish(b: Broker, name: string, payload: seq<byte>, entropy: Option<seq<byte>>): (r: Reply<Result<MessageId, QueueError>>)
    ensures OnlyTouches(b, r.broker, name)
    ensures var t := Queue.Publish(GetQueue(b, name).out, payload, entropy);
      r.out == t.out && r.broker.queues[name] == t.queue
  {
    var g := GetQueue(b, name);
    var t := Queue.Publish(g.out, payload, entropy);
    Reply(Store(g.broker, name, t.queue), t.out)
  }

  /** `Broker.Claim`: one evaluation of Claim on the queue under `name`. */
  function Claim(b: Broker, name: string, now: Time, deadline: Time): (r: Reply<ClaimOutcome>)
    ensures OnlyTouches(b, r.broker, name)
    ensures var t := Queue.Claim(GetQueue(b, name).out, now, deadline);
      r.out == t.out && r.broker.queues[name] == t.queue
  {
    var g := GetQueue(b, name);
    var t := Queue.Claim(g.out, now, deadline);
    Reply(Store(g.broker, name, t.queue), t.out)
  }

  /** `Broker.Ack`: acknowledges `id` on the queue under `name`. */
  function Ack(b: Broker, name: string, id: MessageId): (r: Reply<Outcome<QueueError>>)
    ensures OnlyTouches(b, r.broker, name)
    ensures var t := Queue.Ack(GetQueue(b, name).out, id);
      r.out == t.out && r.broker.queues[name] == t.queue
  {
    var g := GetQueue(b, name);
    var t := Queue.Ack(g.out, id);
    Reply(Store(g.broker, name, t.queue), t.out)
  }

  /** `Broker.Stats`: the counts of the queue under `name`; the lookup alone
      may register the name. */
  function Stats(b: Broker, name: string): (r: Reply<QueueStats>)
    ensures OnlyTouches(b, r.broker, name)
    ensures name in b.queues ==> r == Reply(b, Queue.Stats(b.queues[name]))
    ensures name !in b.queues ==>
      && r.out == QueueStats(0, 0, 0)
      && r.broker == b.(queues := b.queues[name := NewQueue(name, b.leaseDuration, b.maxDelivery)])
  {
    var g := GetQueue(b, name);
    Reply(g.broker, Queue.Stats(g.out))
  }

  /** One tick of the lease-expiry goroutine of the queue under `name`. Only
      registered queues have such a goroutine, so an unknown name changes
      nothing and is not registered. */
  function Tick(b: Broker, name: string, now: Time, order: seq<MessageId>): (r: Broker)
    ensures name !in b.queues ==> r == b
    ensures name in b.queues ==>
      && OnlyTouches(b, r, name)
      && r.queues[name] == RequeueExpired(b.queues[name], now, order).queue
  {
    if name in b.queues then Store(b, name, RequeueExpired(b.queues[name], now, order).queue)
    else b
  }

  // ---------------------------------------------------------------------------
  // Properties

  /** Looking a name up twice finds the same queue and registers nothing more. */
  lemma GetQueueIdempotent(b: Broker, name: string)
    ensures var g := GetQueue(b, name);
      GetQueue(g.broker, name) == g
  {
  }

  datatype BrokerOp =
    | PublishOp(name: string, payload: seq<byte>, entropy: Option<seq<byte>>)
    | ClaimOp(name: string, now: Time, deadline: Time)
    | AckOp(name: string, id: MessageId)
    | StatsOp(name: string)
    | TickOp(name: string, now: Time, order: seq<MessageId>)

  function Apply(b: Broker, op: BrokerOp): Broker {
    match op
    case PublishOp(name, payload, entropy) => Publish(b, name, payload, entropy).broker
    case ClaimOp(name, now, deadline) => Claim(b, name, now, deadline).broker
    case AckOp(name, id) => Ack(b, name, id).broker
    case StatsOp(name) => Stats(b, name).broker
    case TickOp(name, now, order) => Tick(b, name, now, order)
  }

  function Run(b: Broker, ops: seq<BrokerOp>): Broker
    decreases |ops|
  {
    if ops == [] then b else Run(Apply(b, ops[0]), ops[1..])
  }

  /** No single operation unregisters a name. */
  lemma ApplyNeverForgets(b: Broker, op: BrokerOp)
    ensures b.queues.Keys <= Apply(b, op).queues.Keys
  {
    match op
    case PublishOp(name, payload, entropy) => assert OnlyTouches(b, Publish(b, name, payload, entropy).broker, name);
    case ClaimOp(name, now, deadline) => assert OnlyTouches(b, Claim(b, name, now, deadline).broker, name);
    case AckOp(name, id) => assert OnlyTouches(b, Ack(b, name, id).broker, name);
    case StatsOp(name) => assert OnlyTouches(b, Stats(b, name).broker, name);
    case TickOp(name, now, order) =>
  }

  /** No sequence of operations unregisters a name. */
  lemma {:induction false} RunNeverForgets(b: Broker, ops: seq<BrokerOp>)
    ensures b.queues.Keys <= Run(b, ops).queues.Keys
    decreases |ops|
  {
    if ops != [] {
      var next := Apply(b, ops[0]);
      ApplyNeverForgets(b, ops[0]);
      RunNeverForgets(next, ops[1..]);
    }
  }

  /** Every registered queue carries its own name and the broker's
      configuration, and leases no message beyond the delivery limit. */
  ghost predicate Consistent(b: Broker) {
    forall n :: n in b.queues ==>
      && b.queues[n].name == n
      && b.queues[n].leaseDuration == b.leaseDuration
      && b.queues[n].maxDeliveryCount == b.maxDelivery
      && LeasesBounded(b.queues[n])
  }

  /** A queue that fits the broker may be stored under its own name. */
  lemma StoreKeepsConsistent(b: Broker, name: string, q: QueueState)
    requires Consistent(b)
    requires q.name == name && q.leaseDuration == b.leaseDuration && q.maxDeliveryCount == b.maxDelivery
    requires LeasesBounded(q)
    ensures Consistent(Store(b, name, q))
  {
  }

  /** A lookup keeps the broker consistent, and the queue it finds fits the
      broker. */
  lemma GetQueueKeepsConsistent(b: Broker, name: string)
    requires Consistent(b)
    ensures var g := GetQueue(b, name);
      && Consistent(g.broker)
      && g.out.name == name && g.out.leaseDuration == b.leaseDuration && g.out.maxDeliveryCount == b.maxDelivery
      && LeasesBounded(g.out)
  {
    StoreKeepsConsistent(b, name, GetQueue(b, name).out);
  }

  lemma PublishKeepsConsistent(b: Broker, name: string, payload: seq<byte>, entropy: Option<seq<byte>>)
    requires Consistent(b)
    ensures Consistent(Apply(b, PublishOp(name, payload, entropy)))
  {
    var g := GetQueue(b, name);
    GetQueueKeepsConsistent(b, name);
    var t := Queue.Publish(g.out, payload, entropy).queue;
    assert LeasesBounded(t);
    StoreKeepsConsistent(g.broker, name, t);
  }

  lemma ClaimKeepsConsistent(b: Broker, name: string, now: Time, deadline: Time)
    requires Consistent(b)
    ensures Consistent(Apply(b, ClaimOp(name, now, deadline)))
  {
    var g := GetQueue(b, name);
    GetQueueKeepsConsistent(b, name);
    var t := Queue.Claim(g.out, now, deadline).queue;
    assert LeasesBounded(t);
    StoreKeepsConsistent(g.broker, name, t);
  }

  lemma AckKeepsConsistent(b: Broker, name: string, id: MessageId)
    requires Consistent(b)
    ensures Consistent(Apply(b, AckOp(name, id)))
  {
    var g := GetQueue(b, name);
    GetQueueKeepsConsistent(b, name);
    var t := Queue.Ack(g.out, id).queue;
    assert LeasesBounded(t);
    StoreKeepsConsistent(g.broker, name, t);
  }

  lemma StatsKeepsConsistent(b: Broker, name: string)
    requires Consistent(b)
    ensures Consistent(Apply(b, StatsOp(name)))
  {
    GetQueueKeepsConsistent(b, name);
  }

  lemma TickKeepsConsistent(b: Broker, name: string, now: Time, order: seq<MessageId>)
    requires Consistent(b)
    ensures Consistent(Apply(b, TickOp(name, now, order)))
  {
    if name in b.queues {
      var t := RequeueExpired(b.queues[name], now, order).queue;
      assert LeasesBounded(t);
      StoreKeepsConsistent(b, name, t);
    }
  }

  /** Every operation keeps the broker consistent. */
  lemma ApplyKeepsConsistent(b: Broker, op: BrokerOp)
    requires Consistent(b)
    ensures Consistent(Apply(b, op))
  {
    match op
    case PublishOp(name, payload, entropy) => PublishKeepsConsistent(b, name, payload, entropy);
    case ClaimOp(name, now, deadline) => ClaimKeepsConsistent(b, name, now, deadline);
    case AckOp(name, id) => AckKeepsConsistent(b, name, id);
    case StatsOp(name) => StatsKeepsConsistent(b, name);
    case TickOp(name, now, order) => TickKeepsConsistent(b, name, now, order);
  }

  /** Every broker reachable from `NewBroker` is consistent. */
  lemma {:induction false} RunKeepsConsistent(b: Broker, ops: seq<BrokerOp>)
    requires Consistent(b)
    ensures Consistent(Run(b, ops))
    decreases |ops|
  {
    if ops != [] {
      ApplyKeepsConsistent(b, ops[0]);
      RunKeepsConsistent(Apply(b, ops[0]), ops[1..]);
    }
  }

  /** In every reachable broker, a lease-expiry tick of any queue returns
      every expired message to `pending` and dead-letters none. */
  lemma ReachableTickNeverDeadLetters(lease: Duration, maxDelivery: int, ops: seq<BrokerOp>, name: string, now: Time, order: seq<MessageId>)
    ensures var b := Run(NewBroker(lease, maxDelivery), ops);
      name in b.queues ==>
        Tick(b, name, now, order).queues[name].deadLetter == b.queues[name].deadLetter
  {
    RunKeepsConsistent(NewBroker(lease, maxDelivery), ops);
  }
}

=== FILE: common.dfy ===
/** Small shared vocabulary: bytes and the failure-carrying wrappers used for
    Go's `(value, error)` and `(value, ok)` returns. */
module Common {

  /** One octet, as Go's `byte`. */
  type byte = x: int | 0 <= x < 256

  datatype Option<+T> = None | Some(value: T)

  /** A Go `(T, error)` return: exactly one of the two is meaningful. */
  datatype Result<+T, +E> = Ok(value: T) | Err(error: E)

  /** A Go `error` return with no accompanying value. */
  datatype Outcome<+E> = Pass | Fail(error: E)
}

=== FILE: queue.dfy ===
/** One queue's message lifecycle (internal/queue/queue.go). A queue holds a
    FIFO `pending` list, an `inFlight` map from message id to the leased
    message, and an append-only `deadLetter` list. Every public operation runs
    under the queue's mutex, so each is modelled as a pure transition on a
    `QueueState`. Time is a parameter `now` in nanoseconds; the random message
    id is a parameter holding the bytes the entropy source returned. */
module Queue {
  import opened Common
  import Base64Url

  type MessageId = string

  /** Instants and durations in nanoseconds, as Go's `time.Time` and `time.Duration`. */
  type Time = int
  type Duration = int

  const Second: Duration := 1_000_000_000

  /** The most in-flight entries one lease-expiry tick may move. */
  const BatchSize: nat := 100

  datatype Message = Message(id: MessageId, payload: seq<byte>, deliveryCount: nat, visibilityDeadline: Time)

  datatype QueueStats = QueueStats(pending: nat, inFlight: nat, deadLetter: nat)

  datatype QueueState = QueueState(
    name: string,
    pending: seq<Message>,
    inFlight: map<MessageId, Message>,
    deadLetter: seq<Message>,
    maxDeliveryCount: int,
    leaseDuration: Duration)

  datatype QueueError = IdGenerationFailed | NotInFlight

  /** One evaluation of Claim's loop: a delivered message, the timeout error,
      or a wait on the queue's condition variable. */
  datatype ClaimOutcome = Delivered(msg: Message) | TimedOut | WouldBlock

  /** The queue after an operation, together with what the operation returned. */
  datatype Transition<+T> = Transition(queue: QueueState, out: T)

  /** Result of a lease-expiry scan: the queue and how many entries it moved. */
  datatype Sweep = Sweep(queue: QueueState, moved: nat)

  /** The configuration a queue keeps for its whole life. */
  predicate SameConfig(q: QueueState, q': QueueState) {
    q'.name == q.name && q'.maxDeliveryCount == q.maxDeliveryCount && q'.leaseDuration == q.leaseDuration
  }

  /** Claiming `m` once more keeps its delivery count within the limit. */
  predicate Deliverable(m: Message, maxDeliveryCount: int) {
    m.deliveryCount + 1 <= maxDeliveryCount
  }

  /** `now` is strictly after the lease deadline (Go's `now.After(deadline)`). */
  predicate Expired(m: Message, now: Time) {
    now > m.visibilityDeadline
  }

  /** The message as a Claim leaves it: one more delivery, leased until `now + lease`. */
  function Bump(m: Message, now: Time, lease: Duration): Message {
    m.(deliveryCount := m.deliveryCount + 1, visibilityDeadline := now + lease)
  }

  function BumpAll(s: seq<Message>, now: Time, lease: Duration): seq<Message> {
    seq(|s|, i requires 0 <= i < |s| => Bump(s[i], now, lease))
  }

  /** Number of messages the queue holds in any collection. */
  function Total(q: QueueState): nat {
    |q.pending| + |q.inFlight| + |q.deadLetter|
  }

  // ---------------------------------------------------------------------------
  // Invariant

  ghost function IdsOf(s: seq<Message>): set<MessageId> {
    set i | 0 <= i < |s| :: s[i].id
  }

  ghost predicate DistinctIds(s: seq<Message>) {
    forall i, j :: 0 <= i < j < |s| ==> s[i].id != s[j].id
  }

  /** Every leased message is within the delivery limit. */
  ghost predicate LeasesBounded(q: QueueState) {
    forall id :: id in q.inFlight ==> q.inFlight[id].deliveryCount <= q.maxDeliveryCount
  }

  /** The in-flight map is keyed by its messages' own ids. */
  ghost predicate KeyedById(q: QueueState) {
    forall id :: id in q.inFlight ==> q.inFlight[id].id == id
  }

  /** Each message id is held at most once, in exactly one collection; the
      in-flight map is keyed by its messages' own ids. */
  ghost predicate Valid(q: QueueState) {
    && DistinctIds(q.pending)
    && DistinctIds(q.deadLetter)
    && KeyedById(q)
    && IdsOf(q.pending) !! q.inFlight.Keys
    && IdsOf(q.deadLetter) !! q.inFlight.Keys
    && IdsOf(q.pending) !! IdsOf(q.deadLetter)
    && LeasesBounded(q)
  }

  /** The ids of every message the queue holds. */
  ghost function AllIds(q: QueueState): set<MessageId> {
    IdsOf(q.pending) + q.inFlight.Keys + IdsOf(q.deadLetter)
  }

  // ---------------------------------------------------------------------------
  // Operations

  /** `NewInMemoryQueue`: empty collections and the given configuration. */
  function NewQueue(name: string, lease: Duration, maxDelivery: int): (q: QueueState)
    ensures Valid(q) && Total(q) == 0 && AllIds(q) == {}
    ensures q.name == name && q.leaseDuration == lease && q.maxDeliveryCount == maxDelivery
  {
    QueueState(name, [], map[], [], maxDelivery, lease)
  }

  /** `Publish`: the id is the unpadded base64url text of the random bytes;
      the new message, never delivered, joins the tail of `pending`. A failed
      read of the entropy source is the only error, and it changes nothing. */
  function Publish(q: QueueState, payload: seq<byte>, entropy: Option<seq<byte>>): (r: Transition<Result<MessageId, QueueError>>)
    ensures entropy.None? ==> r == Transition(q, Err(IdGenerationFailed))
    ensures entropy.Some? ==> r.out == Ok(Base64Url.Encode(entropy.value))
    ensures r.out.Ok? ==>
      && r.queue.pending == q.pending + [Message(r.out.value, payload, 0, 0)]
      && r.queue.inFlight == q.inFlight
      && r.queue.deadLetter == q.deadLetter
      && SameConfig(q, r.queue)
  {
    match entropy
    case None => Transition(q, Err(IdGenerationFailed))
    case Some(bytes) =>
      var id := Base64Url.Encode(bytes);
      Transition(q.(pending := q.pending + [Message(id, payload, 0, 0)]), Ok(id))
  }

  /** The index of the first message in `s` that can still be delivered, or
      `|s|` when there is none. */
  function FirstDeliverable(s: seq<Message>, maxDeliveryCount: int): (k: nat)
    ensures k <= |s|
    ensures forall i :: 0 <= i < k ==> !Deliverable(s[i], maxDeliveryCount)
    ensures k < |s| ==> Deliverable(s[k], maxDeliveryCount)
    decreases |s|
  {
    if |s| == 0 || Deliverable(s[0], maxDeliveryCount) then 0
    else 1 + FirstDeliverable(s[1..], maxDeliveryCount)
  }

  /** One evaluation of `Claim`'s loop under the lock. The head of `pending`
      is taken and bumped; if its count now exceeds the limit it goes to
      `deadLetter` and the loop continues with the next head, otherwise it is
      leased and returned. With `pending` empty the call times out once `now`
      has reached `deadline`, and otherwise waits; in both cases the
      dead-lettering done on the way is kept. */
  function Claim(q: QueueState, now: Time, deadline: Time): (r: Transition<ClaimOutcome>)
    ensures SameConfig(q, r.queue)
    ensures r.out.Delivered? <==> FirstDeliverable(q.pending, q.maxDeliveryCount) < |q.pending|
    ensures r.out.Delivered? ==>
      var m := r.out.msg;
      && m == Bump(q.pending[FirstDeliverable(q.pending, q.maxDeliveryCount)], now, q.leaseDuration)
      && m.deliveryCount <= q.maxDeliveryCount
      && r.queue.inFlight == q.inFlight[m.id := m]
    ensures !r.out.Delivered? ==>
      && r.queue.pending == []
      && r.queue.inFlight == q.inFlight
      && (r.out.TimedOut? <==> now >= deadline)
    ensures q.pending == [] ==> r == Transition(q, if now >= deadline then TimedOut else WouldBlock)
    decreases |q.pending|
  {
    if |q.pending| > 0 then
      var m := Bump(q.pending[0], now, q.leaseDuration);
      var rest := q.(pending := q.pending[1..]);
      if m.deliveryCount > q.maxDeliveryCount then
        Claim(rest.(deadLetter := rest.deadLetter + [m]), now, deadline)
      else
        Transition(rest.(inFlight := rest.inFlight[m.id := m]), Delivered(m))
    else if now >= deadline then
      Transition(q, TimedOut)
    else
      Transition(q, WouldBlock)
  }

  /** `Ack`: succeeds exactly when the id is in flight, and then forgets it. */
  function Ack(q: QueueState, id: MessageId): (r: Transition<Outcome<QueueError>>)
    ensures r.out.Pass? <==> id in q.inFlight
    ensures r.out.Pass? ==> r.queue == q.(inFlight := q.inFlight - {id})
    ensures r.out.Fail? ==> r == Transition(q, Fail(NotInFlight))
  {
    if id !in q.inFlight then Transition(q, Fail(NotInFlight))
    else Transition(q.(inFlight := q.inFlight - {id}), Pass)
  }

  /** `Stats`: the size of each collection. It returns no new state. */
  function Stats(q: QueueState): (s: QueueStats)
    ensures s.pending == |q.pending| && s.inFlight == |q.inFlight| && s.deadLetter == |q.deadLetter|
  {
    QueueStats(|q.pending|, |q.inFlight|, |q.deadLetter|)
  }

  /** Takes the entry `id` out of flight: to the tail of `deadLetter` if its
      count exceeds the limit, to the tail of `pending` otherwise. */
  function Reclaim(q: QueueState, id: MessageId): (r: QueueState)
    requires id in q.inFlight
    ensures SameConfig(q, r) && r.inFlight == q.inFlight - {id}
    ensures var m := q.inFlight[id];
      if m.deliveryCount > q.maxDeliveryCount then r.pending == q.pending && r.deadLetter == q.deadLetter + [m]
      else r.pending == q.pending + [m] && r.deadLetter == q.deadLetter
  {
    var m := q.inFlight[id];
    var rest := q.(inFlight := q.inFlight - {id});
    if m.deliveryCount > q.maxDeliveryCount then rest.(deadLetter := rest.deadLetter + [m])
    else rest.(pending := rest.pending + [m])
  }

  /** The body of one `requeueExpired` tick from position `moved` on. Ids are
      visited in `order`, the map's iteration order; an id not (or no longer)
      in flight is skipped. The scan stops once `BatchSize` entries have moved.
      An expired entry leaves `inFlight` for the tail of `deadLetter` if its
      count exceeds the limit and for the tail of `pending` otherwise. What
      the scan does is stated by the lemmas that follow it. */
  function SweepScan(q: QueueState, now: Time, order: seq<MessageId>, moved: nat): (r: Sweep)
    requires moved <= BatchSize
    ensures moved <= r.moved <= BatchSize
    decreases |order|
  {
    if |order| == 0 || moved >= BatchSize then Sweep(q, moved)
    else
      var id := order[0];
      if id in q.inFlight && Expired(q.inFlight[id], now) then
        SweepScan(Reclaim(q, id), now, order[1..], moved + 1)
      else
        SweepScan(q, now, order[1..], moved)
  }

  /** The scan only takes entries out of flight, and only expired ones; the
      entries it keeps are unchanged, and so is the configuration. */
  lemma {:induction false} SweepScanFrame(q: QueueState, now: Time, order: seq<MessageId>, moved: nat)
    requires moved <= BatchSize
    ensures var r := SweepScan(q, now, order, moved).queue;
      && SameConfig(q, r)
      && r.inFlight.Keys <= q.inFlight.Keys
      && (forall id :: id in r.inFlight ==> r.inFlight[id] == q.inFlight[id])
      && (forall id :: id in q.inFlight && !Expired(q.inFlight[id], now) ==> id in r.inFlight)
    decreases |order|
  {
    if |order| > 0 && moved < BatchSize {
      var id := order[0];
      if id in q.inFlight && Expired(q.inFlight[id], now) {
        var next := Reclaim(q, id);
        SweepScanFrame(next, now, order[1..], moved + 1);
        assert SweepScan(q, now, order, moved) == SweepScan(next, now, order[1..], moved + 1);
      } else {
        SweepScanFrame(q, now, order[1..], moved);
        assert SweepScan(q, now, order, moved) == SweepScan(q, now, order[1..], moved);
      }
    }
  }

  /** The scan takes exactly as many entries out of flight as it reports
      moving. */
  lemma {:induction false} SweepScanShrinks(q: QueueState, now: Time, order: seq<MessageId>, moved: nat)
    requires moved <= BatchSize
    ensures var s := SweepScan(q, now, order, moved);
      |q.inFlight| == |s.queue.inFlight| + (s.moved - moved)
    decreases |order|
  {
    if |order| > 0 && moved < BatchSize {
      var id := order[0];
      if id in q.inFlight && Expired(q.inFlight[id], now) {
        var next := Reclaim(q, id);
        assert next.inFlight == q.inFlight - {id};
        assert |next.inFlight| == |q.inFlight| - 1;
        SweepScanShrinks(next, now, order[1..], moved + 1);
        assert SweepScan(q, now, order, moved) == SweepScan(next, now, order[1..], moved + 1);
      } else {
        SweepScanShrinks(q, now, order[1..], moved);
        assert SweepScan(q, now, order, moved) == SweepScan(q, now, order[1..], moved);
      }
    }
  }

  /** The scan keeps the old `pending` and `deadLetter` as prefixes, and the
      two tails grow together by exactly the number of entries moved. */
  lemma {:induction false} SweepScanMoves(q: QueueState, now: Time, order: seq<MessageId>, moved: nat)
    requires moved <= BatchSize
    ensures var s := SweepScan(q, now, order, moved); var r := s.queue;
      && q.pending <= r.pending && q.deadLetter <= r.deadLetter
      && (|r.pending| - |q.pending|) + (|r.deadLetter| - |q.deadLetter|) == s.moved - moved
    decreases |order|
  {
    if |order| > 0 && moved < BatchSize {
      var id := order[0];
      if id in q.inFlight && Expired(q.inFlight[id], now) {
        var next := Reclaim(q, id);
        SweepScanMoves(next, now, order[1..], moved + 1);
        assert SweepScan(q, now, order, moved) == SweepScan(next, now, order[1..], moved + 1);
      } else {
        SweepScanMoves(q, now, order[1..], moved);
        assert SweepScan(q, now, order, moved) == SweepScan(q, now, order[1..], moved);
      }
    }
  }

  /** What the scan appends is expired: to `pending` only entries within the
      delivery limit, to `deadLetter` only entries over it. */
  lemma {:induction false} SweepScanAppends(q: QueueState, now: Time, order: seq<MessageId>, moved: nat)
    requires moved <= BatchSize
    ensures var r := SweepScan(q, now, order, moved).queue;
      && (forall i :: |q.pending| <= i < |r.pending| ==>
            Expired(r.pending[i], now) && r.pending[i].deliveryCount <= q.maxDeliveryCount)
      && (forall i :: |q.deadLetter| <= i < |r.deadLetter| ==>
            Expired(r.deadLetter[i], now) && r.deadLetter[i].deliveryCount > q.maxDeliveryCount)
    decreases |order|
  {
    if |order| > 0 && moved < BatchSize {
      var id := order[0];
      if id in q.inFlight && Expired(q.inFlight[id], now) {
        var next := Reclaim(q, id);
        SweepScanAppends(next, now, order[1..], moved + 1);
        SweepScanMoves(next, now, order[1..], moved + 1);
        assert SweepScan(q, now, order, moved) == SweepScan(next, now, order[1..], moved + 1);
      } else {
        SweepScanAppends(q, now, order[1..], moved);
        assert SweepScan(q, now, order, moved) == SweepScan(q, now, order[1..], moved);
      }
    }
  }

  /** Every entry the scan appends to `pending` or `deadLetter` is the very
      entry it took out of flight, unchanged: same id, payload and delivery
      count. */
  lemma {:induction false} SweepScanAppendsFromFlight(q: QueueState, now: Time, order: seq<MessageId>, moved: nat)
    requires moved <= BatchSize
    requires KeyedById(q)
    ensures var r := SweepScan(q, now, order, moved).queue;
      && (forall i :: |q.pending| <= i < |r.pending| ==>
            r.pending[i].id in q.inFlight && q.inFlight[r.pending[i].id] == r.pending[i] && r.pending[i].id !in r.inFlight)
      && (forall i :: |q.deadLetter| <= i < |r.deadLetter| ==>
            r.deadLetter[i].id in q.inFlight && q.inFlight[r.deadLetter[i].id] == r.deadLetter[i] && r.deadLetter[i].id !in r.inFlight)
    decreases |order|
  {
    if |order| > 0 && moved < BatchSize {
      var id := order[0];
      if id in q.inFlight && Expired(q.inFlight[id], now) {
        var next := Reclaim(q, id);
        var r := SweepScan(next, now, order[1..], moved + 1).queue;
        assert KeyedById(next);
        SweepScanAppendsFromFlight(next, now, order[1..], moved + 1);
        SweepScanMoves(next, now, order[1..], moved + 1);
        SweepScanFrame(next, now, order[1..], moved + 1);
        assert SweepScan(q, now, order, moved) == SweepScan(next, now, order[1..], moved + 1);
        assert id !in r.inFlight;
      } else {
        assert SweepScan(q, now, order, moved) == SweepScan(q, now, order[1..], moved);
        SweepScanAppendsFromFlight(q, now, order[1..], moved);
      }
    }
  }

  /** Unless the batch ran out, no id of `order` is left in flight expired. */
  lemma {:induction false} SweepScanComplete(q: QueueState, now: Time, order: seq<MessageId>, moved: nat)
    requires moved <= BatchSize
    ensures var s := SweepScan(q, now, order, moved);
      s.moved < BatchSize ==>
        forall id :: id in order && id in s.queue.inFlight ==> !Expired(s.queue.inFlight[id], now)
    decreases |order|
  {
    if |order| > 0 && moved < BatchSize {
      var id := order[0];
      var s := SweepScan(q, now, order, moved);
      if id in q.inFlight && Expired(q.inFlight[id], now) {
        var next := Reclaim(q, id);
        SweepScanComplete(next, now, order[1..], moved + 1);
        SweepScanFrame(next, now, order[1..], moved + 1);
        assert s == SweepScan(next, now, order[1..], moved + 1);
      } else {
        SweepScanComplete(q, now, order[1..], moved);
        SweepScanFrame(q, now, order[1..], moved);
        assert s == SweepScan(q, now, order[1..], moved);
      }
    }
  }

  /** While every leased message is within the delivery limit, the scan
      dead-letters nothing. */
  lemma {:induction false} SweepScanKeepsDeadLetter(q: QueueState, now: Time, order: seq<MessageId>, moved: nat)
    requires moved <= BatchSize
    ensures LeasesBounded(q) ==> SweepScan(q, now, order, moved).queue.deadLetter == q.deadLetter
    decreases |order|
  {
    if |order| > 0 && moved < BatchSize && LeasesBounded(q) {
      var id := order[0];
      if id in q.inFlight && Expired(q.inFlight[id], now) {
        var next := Reclaim(q, id);
        assert next.deadLetter == q.deadLetter && LeasesBounded(next);
        SweepScanKeepsDeadLetter(next, now, order[1..], moved + 1);
        assert SweepScan(q, now, order, moved) == SweepScan(next, now, order[1..], moved + 1);
      } else {
        SweepScanKeepsDeadLetter(q, now, order[1..], moved);
        assert SweepScan(q, now, order, moved) == SweepScan(q, now, order[1..], moved);
      }
    }
  }

  /** One tick of the background `requeueExpired` goroutine. It moves at most
      `BatchSize` entries, only expired ones, and loses none; when `order`
      lists every in-flight id and the batch was not exhausted, no expired
      entry is left in flight. While every leased message is within the
      delivery limit, every moved entry goes back to `pending`. What it
      appends is the in-flight message itself, unchanged. */
  function RequeueExpired(q: QueueState, now: Time, order: seq<MessageId>): (r: Sweep)
    ensures r.moved <= BatchSize
    ensures SameConfig(q, r.queue)
    ensures Total(r.queue) == Total(q)
    ensures |q.inFlight| - |r.queue.inFlight| == r.moved
    ensures q.pending <= r.queue.pending && q.deadLetter <= r.queue.deadLetter
    ensures forall id :: id in r.queue.inFlight ==> id in q.inFlight && r.queue.inFlight[id] == q.inFlight[id]
    ensures forall id :: id in q.inFlight && !Expired(q.inFlight[id], now) ==> id in r.queue.inFlight
    ensures (forall id :: id in q.inFlight ==> id in order) && r.moved < BatchSize ==>
      forall id :: id in r.queue.inFlight ==> !Expired(r.queue.inFlight[id], now)
    ensures LeasesBounded(q) ==> r.queue.deadLetter == q.deadLetter && |r.queue.pending| == |q.pending| + r.moved
    ensures KeyedById(q) ==>
      && (forall i :: |q.pending| <= i < |r.queue.pending| ==>
            var m := r.queue.pending[i]; m.id in q.inFlight && q.inFlight[m.id] == m && m.id !in r.queue.inFlight)
      && (forall i :: |q.deadLetter| <= i < |r.queue.deadLetter| ==>
            var m := r.queue.deadLetter[i]; m.id in q.inFlight && q.inFlight[m.id] == m && m.id !in r.queue.inFlight)
  {
    SweepScanFrame(q, now, order, 0);
    SweepScanShrinks(q, now, order, 0);
    SweepScanMoves(q, now, order, 0);
    SweepScanComplete(q, now, order, 0);
    SweepScanKeepsDeadLetter(q, now, order, 0);
    assert KeyedById(q) ==> var r := SweepScan(q, now, order, 0).queue;
      && (forall i :: |q.pending| <= i < |r.pending| ==>
            var m := r.pending[i]; m.id in q.inFlight && q.inFlight[m.id] == m && m.id !in r.inFlight)
      && (forall i :: |q.deadLetter| <= i < |r.deadLetter| ==>
            var m := r.deadLetter[i]; m.id in q.inFlight && q.inFlight[m.id] == m && m.id !in r.inFlight)
    by {
      if KeyedById(q) {
        SweepScanAppendsFromFlight(q, now, order, 0);
      }
    }
    SweepScan(q, now, order, 0)
  }
}

=== FILE: queue_properties.dfy ===
/** Properties of the queue engine: each operation keeps the queue's
    invariant, messages are conserved, Claim takes messages in publish order,
    and in every reachable state the dead-letter branch of the lease-expiry
    sweep is dead code. */
module QueueProperties {
  import opened Common
  import Base64Url
  import opened Queue

  // ---------------------------------------------------------------------------
  // Ids of message sequences

  lemma IdsOfSnoc(s: seq<Message>, m: Message)
    ensures IdsOf(s + [m]) == IdsOf(s) + {m.id}
  {
    var t := s + [m];
    assert t[|s|].id == m.id;
    forall x | x in IdsOf(s)
      ensures x in IdsOf(t)
    {
      var i :| 0 <= i < |s| && s[i].id == x;
      assert t[i].id == x;
    }
  }

  lemma IdsOfTail(s: seq<Message>)
    requires |s| > 0
    ensures IdsOf(s) == {s[0].id} + IdsOf(s[1..])
  {
    forall x | x in IdsOf(s[1..])
      ensures x in IdsOf(s)
    {
      var i :| 0 <= i < |s[1..]| && s[1..][i].id == x;
      assert s[i + 1].id == x;
    }
    forall x | x in IdsOf(s) && x != s[0].id
      ensures x in IdsOf(s[1..])
    {
      var i :| 0 <= i < |s| && s[i].id == x;
      assert s[1..][i - 1].id == x;
    }
  }

  lemma DistinctSnoc(s: seq<Message>, m: Message)
    requires DistinctIds(s) && m.id !in IdsOf(s)
    ensures DistinctIds(s + [m])
  {
    var t := s + [m];
    forall i, j | 0 <= i < j < |t|
      ensures t[i].id != t[j].id
    {
      if j == |s| {
        assert t[i].id == s[i].id && s[i].id in IdsOf(s);
      }
    }
  }

  /** Distinct ids are as many as the messages. */
  lemma {:induction false} DistinctIdsCard(s: seq<Message>)
    requires DistinctIds(s)
    ensures |IdsOf(s)| == |s|
    decreases |s|
  {
    if |s| > 0 {
      IdsOfTail(s);
      assert DistinctIds(s[1..]);
      DistinctIdsCard(s[1..]);
    }
  }

  // ---------------------------------------------------------------------------
  // Conservation: the counts Stats reports name every held message once

  /** In a valid queue the three counts Stats reports add up to the number of
      distinct messages the queue holds. */
  lemma StatsCountMessages(q: QueueState)
    requires Valid(q)
    ensures var s := Stats(q); s.pending + s.inFlight + s.deadLetter == |AllIds(q)|
  {
    DistinctIdsCard(q.pending);
    DistinctIdsCard(q.deadLetter);
    var a, b, c := IdsOf(q.pending), q.inFlight.Keys, IdsOf(q.deadLetter);
    assert a * b == {};
    assert |a + b| == |a| + |b|;
    assert (a + b) * c == {};
    assert |a + b + c| == |a + b| + |c|;
  }

  // ---------------------------------------------------------------------------
  // Each operation keeps the invariant

  /** A publish whose random id is new to the queue keeps it valid and adds
      exactly that one message. */
  lemma PublishPreservesValid(q: QueueState, payload: seq<byte>, entropy: Option<seq<byte>>)
    requires Valid(q)
    requires entropy.Some? ==> Base64Url.Encode(entropy.value) !in AllIds(q)
    ensures var r := Publish(q, payload, entropy);
      && Valid(r.queue)
      && (r.out.Ok? ==> AllIds(r.queue) == AllIds(q) + {r.out.value} && Total(r.queue) == Total(q) + 1)
      && (r.out.Err? ==> r.queue == q)
  {
    var r := Publish(q, payload, entropy);
    if r.out.Ok? {
      var m := Message(r.out.value, payload, 0, 0);
      IdsOfSnoc(q.pending, m);
      DistinctSnoc(q.pending, m);
    }
  }

  /** The head of a valid `pending` is not repeated in its tail. */
  lemma HeadNotInTail(s: seq<Message>)
    requires |s| > 0 && DistinctIds(s)
    ensures IdsOf(s) == {s[0].id} + IdsOf(s[1..]) && s[0].id !in IdsOf(s[1..])
  {
    IdsOfTail(s);
  }

  /** One pass of Claim's loop that dead-letters the bumped head. */
  lemma DeadLetterHeadPreservesValid(q: QueueState, m: Message)
    requires Valid(q) && |q.pending| > 0 && m.id == q.pending[0].id
    ensures var next := q.(pending := q.pending[1..], deadLetter := q.deadLetter + [m]);
      Valid(next) && AllIds(next) == AllIds(q)
  {
    HeadNotInTail(q.pending);
    IdsOfSnoc(q.deadLetter, m);
    assert m.id !in IdsOf(q.deadLetter);
    DistinctSnoc(q.deadLetter, m);
  }

  /** One pass of Claim's loop that leases the bumped head. */
  lemma LeaseHeadPreservesValid(q: QueueState, m: Message)
    requires Valid(q) && |q.pending| > 0 && m.id == q.pending[0].id && m.deliveryCount <= q.maxDeliveryCount
    ensures var next := q.(pending := q.pending[1..], inFlight := q.inFlight[m.id := m]);
      Valid(next) && AllIds(next) == AllIds(q) && Total(next) == Total(q)
  {
    var next := q.(pending := q.pending[1..], inFlight := q.inFlight[m.id := m]);
    HeadNotInTail(q.pending);
    assert m.id in IdsOf(q.pending);
    assert m.id !in q.inFlight && m.id !in IdsOf(q.deadLetter);
    assert next.inFlight.Keys == q.inFlight.Keys + {m.id};
    assert IdsOf(next.pending) !! next.inFlight.Keys;
    assert IdsOf(next.deadLetter) !! next.inFlight.Keys;
    assert LeasesBounded(next);
  }

  /** Claim keeps the queue valid and loses no message: it only moves
      messages from `pending` to `inFlight` or `deadLetter`. */
  lemma {:induction false} ClaimPreservesValid(q: QueueState, now: Time, deadline: Time)
    requires Valid(q)
    ensures var r := Claim(q, now, deadline);
      Valid(r.queue) && AllIds(r.queue) == AllIds(q) && Total(r.queue) == Total(q)
    decreases |q.pending|
  {
    if |q.pending| > 0 {
      var m := Bump(q.pending[0], now, q.leaseDuration);
      if m.deliveryCount > q.maxDeliveryCount {
        var next := q.(pending := q.pending[1..], deadLetter := q.deadLetter + [m]);
        DeadLetterHeadPreservesValid(q, m);
        ClaimPreservesValid(next, now, deadline);
        assert Claim(q, now, deadline) == Claim(next, now, deadline);
      } else {
        LeaseHeadPreservesValid(q, m);
      }
    }
  }

  /** A successful Ack removes exactly the acknowledged message. */
  lemma AckPreservesValid(q: QueueState, id: MessageId)
    requires Valid(q)
    ensures var r := Ack(q, id);
      && Valid(r.queue)
      && (r.out.Pass? ==> AllIds(r.queue) == AllIds(q) - {id} && Total(r.queue) == Total(q) - 1)
      && (r.out.Fail? ==> r.queue == q)
  {
    var r := Ack(q, id);
    if r.out.Pass? {
      assert r.queue.inFlight.Keys == q.inFlight.Keys - {id};
      assert id !in IdsOf(q.pending) && id !in IdsOf(q.deadLetter);
    }
  }

  /** Taking one in-flight entry out of flight keeps the queue valid and
      its ids. */
  lemma ReclaimPreservesValid(q: QueueState, id: MessageId)
    requires Valid(q) && id in q.inFlight
    ensures Valid(Reclaim(q, id)) && AllIds(Reclaim(q, id)) == AllIds(q)
  {
    var m := q.inFlight[id];
    assert m.id == id;
    assert id !in IdsOf(q.pending) && id !in IdsOf(q.deadLetter);
    if m.deliveryCount > q.maxDeliveryCount {
      IdsOfSnoc(q.deadLetter, m);
      DistinctSnoc(q.deadLetter, m);
    } else {
      IdsOfSnoc(q.pending, m);
      DistinctSnoc(q.pending, m);
    }
  }

  /** The lease-expiry scan keeps the queue valid and loses no message. */
  lemma {:induction false} SweepPreservesValid(q: QueueState, now: Time, order: seq<MessageId>, moved: nat)
    requires Valid(q) && moved <= BatchSize
    ensures var r := SweepScan(q, now, order, moved);
      Valid(r.queue) && AllIds(r.queue) == AllIds(q)
    decreases |order|
  {
    if |order| > 0 && moved < BatchSize {
      var id := order[0];
      if id in q.inFlight && Expired(q.inFlight[id], now) {
        ReclaimPreservesValid(q, id);
        var next := Reclaim(q, id);
        SweepPreservesValid(next, now, order[1..], moved + 1);
        assert SweepScan(q, now, order, moved) == SweepScan(next, now, order[1..], moved + 1);
      } else {
        SweepPreservesValid(q, now, order[1..], moved);
        assert SweepScan(q, now, order, moved) == SweepScan(q, now, order[1..], moved);
      }
    } else {
      assert SweepScan(q, now, order, moved).queue == q;
    }
  }

  // ---------------------------------------------------------------------------
  // Claim against a reference description

  /** Dead-lettering the bumped head and then the bumped next `k - 1`
      messages is dead-lettering the bumped first `k`. */
  lemma DeadLetterPrefix(dead: seq<Message>, s: seq<Message>, k: nat, now: Time, lease: Duration)
    requires 0 < k <= |s|
    ensures (dead + [Bump(s[0], now, lease)]) + BumpAll(s[1..][..k - 1], now, lease) == dead + BumpAll(s[..k], now, lease)
  {
    assert [Bump(s[0], now, lease)] + BumpAll(s[1..][..k - 1], now, lease) == BumpAll(s[..k], now, lease);
  }

  /** When the first message that can still be delivered sits at index `k`,
      Claim bumps and dead-letters the `k` messages before it, in order, and
      leases and returns that message; the rest of `pending` keeps its order. */
  lemma {:induction false} ClaimDeliversFirstDeliverable(q: QueueState, now: Time, deadline: Time, k: nat)
    requires k < |q.pending| && Deliverable(q.pending[k], q.maxDeliveryCount)
    requires forall i :: 0 <= i < k ==> !Deliverable(q.pending[i], q.maxDeliveryCount)
    ensures var m := Bump(q.pending[k], now, q.leaseDuration);
      Claim(q, now, deadline) == Transition(
        q.(pending := q.pending[k + 1..],
           inFlight := q.inFlight[m.id := m],
           deadLetter := q.deadLetter + BumpAll(q.pending[..k], now, q.leaseDuration)),
        Delivered(m))
    decreases k
  {
    var lease := q.leaseDuration;
    if k == 0 {
      assert BumpAll(q.pending[..0], now, lease) == [];
    } else {
      var m0 := Bump(q.pending[0], now, lease);
      var next := q.(pending := q.pending[1..], deadLetter := q.deadLetter + [m0]);
      assert Claim(q, now, deadline) == Claim(next, now, deadline);
      assert next.pending[k - 1] == q.pending[k];
      ClaimDeliversFirstDeliverable(next, now, deadline, k - 1);
      assert next.pending[k..] == q.pending[k + 1..];
      DeadLetterPrefix(q.deadLetter, q.pending, k, now, lease);
    }
  }

  /** When no pending message can be delivered, Claim dead-letters all of
      them, in order, and then times out or waits. */
  lemma {:induction false} ClaimDrainsUndeliverable(q: QueueState, now: Time, deadline: Time)
    requires forall i :: 0 <= i < |q.pending| ==> !Deliverable(q.pending[i], q.maxDeliveryCount)
    ensures Claim(q, now, deadline) == Transition(
      q.(pending := [], deadLetter := q.deadLetter + BumpAll(q.pending, now, q.leaseDuration)),
      if now >= deadline then TimedOut else WouldBlock)
    decreases |q.pending|
  {
    var lease := q.leaseDuration;
    if |q.pending| == 0 {
      assert BumpAll(q.pending, now, lease) == [];
      assert q.(pending := [], deadLetter := q.deadLetter) == q;
    } else {
      var m0 := Bump(q.pending[0], now, lease);
      var next := q.(pending := q.pending[1..], deadLetter := q.deadLetter + [m0]);
      ClaimDrainsUndeliverable(next, now, deadline);
      assert [m0] + BumpAll(next.pending, now, lease) == BumpAll(q.pending, now, lease);
    }
  }

  /** Publish order is delivery order: when the delivery limit is at least
      1, two messages published into an empty queue are claimed first-in,
      first-out. */
  lemma FifoUnderNoContention(q: QueueState, a: seq<byte>, ea: seq<byte>, b: seq<byte>, eb: seq<byte>, now: Time, deadline: Time)
    requires q.pending == [] && q.maxDeliveryCount >= 1
    ensures
      var q2 := Publish(Publish(q, a, Some(ea)).queue, b, Some(eb)).queue;
      var c1 := Claim(q2, now, deadline);
      var c2 := Claim(c1.queue, now, deadline);
      && c1.out == Delivered(Bump(Message(Base64Url.Encode(ea), a, 0, 0), now, q.leaseDuration))
      && c2.out == Delivered(Bump(Message(Base64Url.Encode(eb), b, 0, 0), now, q.leaseDuration))
  {
  }

  /** With a delivery limit of 0 or less, which the broker passes through
      unchecked, the first Claim after those two publishes delivers nothing:
      both messages, each counted as delivered once, go to the dead-letter
      queue in publish order. */
  lemma FifoFailsAtLimitZero(q: QueueState, a: seq<byte>, ea: seq<byte>, b: seq<byte>, eb: seq<byte>, now: Time, deadline: Time)
    requires q.pending == [] && q.maxDeliveryCount <= 0
    ensures
      var q2 := Publish(Publish(q, a, Some(ea)).queue, b, Some(eb)).queue;
      var c1 := Claim(q2, now, deadline);
      && !c1.out.Delivered?
      && c1.queue.pending == []
      && c1.queue.deadLetter == q.deadLetter + [Bump(Message(Base64Url.Encode(ea), a, 0, 0), now, q.leaseDuration),
                                                Bump(Message(Base64Url.Encode(eb), b, 0, 0), now, q.leaseDuration)]
  {
  }

  /** `n` Claims in a row at the same instant, with what each returned. */
  function ClaimMany(q: QueueState, now: Time, deadline: Time, n: nat): Transition<seq<ClaimOutcome>>
    decreases n
  {
    if n == 0 then Transition(q, [])
    else
      var c := Claim(q, now, deadline);
      var rest := ClaimMany(c.queue, now, deadline, n - 1);
      Transition(rest.queue, [c.out] + rest.out)
  }

  /** FIFO: while every pending message is still deliverable, `n` successive
      Claims return the first `n` pending messages in publish order, each
      with one more delivery, and leave the rest of `pending` in order. */
  lemma {:induction false} ClaimsFollowPublishOrder(q: QueueState, now: Time, deadline: Time, n: nat)
    requires n <= |q.pending|
    requires forall i :: 0 <= i < |q.pending| ==> Deliverable(q.pending[i], q.maxDeliveryCount)
    ensures var r := ClaimMany(q, now, deadline, n);
      && |r.out| == n
      && (forall i :: 0 <= i < n ==> r.out[i] == Delivered(Bump(q.pending[i], now, q.leaseDuration)))
      && r.queue.pending == q.pending[n..]
    decreases n
  {
    if n > 0 {
      var c := Claim(q, now, deadline);
      ClaimDeliversFirstDeliverable(q, now, deadline, 0);
      var rest := ClaimMany(c.queue, now, deadline, n - 1);
      ClaimsFollowPublishOrder(c.queue, now, deadline, n - 1);
      var r := ClaimMany(q, now, deadline, n);
      assert r.out == [c.out] + rest.out;
      forall i | 1 <= i < n
        ensures r.out[i] == Delivered(Bump(q.pending[i], now, q.leaseDuration))
      {
        assert r.out[i] == rest.out[i - 1];
        assert c.queue.pending[i - 1] == q.pending[i];
      }
      assert q.pending[1..][n - 1..] == q.pending[n..];
    }
  }

  /** A second Ack of the same id fails: the first one removed it. */
  lemma AckTwiceFails(q: QueueState, id: MessageId)
    ensures Ack(Ack(q, id).queue, id).out == Fail(NotInFlight)
  {
  }

  // ---------------------------------------------------------------------------
  // Runs of operations

  datatype QueueOp =
    | PublishOp(payload: seq<byte>, entropy: Option<seq<byte>>)
    | ClaimOp(now: Time, deadline: Time)
    | AckOp(id: MessageId)
    | StatsOp
    | TickOp(now: Time, order: seq<MessageId>)

  /** A queue after some operations, with how many publishes and acks succeeded. */
  datatype Trace = Trace(queue: QueueState, published: nat, acked: nat)

  function Step(q: QueueState, op: QueueOp): Trace {
    match op
    case PublishOp(payload, entropy) =>
      var r := Publish(q, payload, entropy);
      Trace(r.queue, if r.out.Ok? then 1 else 0, 0)
    case ClaimOp(now, deadline) => Trace(Claim(q, now, deadline).queue, 0, 0)
    case AckOp(id) =>
      var r := Ack(q, id);
      Trace(r.queue, 0, if r.out.Pass? then 1 else 0)
    case StatsOp => Trace(q, 0, 0)
    case TickOp(now, order) => Trace(RequeueExpired(q, now, order).queue, 0, 0)
  }

  function Run(q: QueueState, ops: seq<QueueOp>): Trace
    decreases |ops|
  {
    if ops == [] then Trace(q, 0, 0)
    else
      var s := Step(q, ops[0]);
      var t := Run(s.queue, ops[1..]);
      Trace(t.queue, s.published + t.published, s.acked + t.acked)
  }

  /** Publishes in the run draw ids that are new to the queue at that point. */
  ghost predicate FreshIds(q: QueueState, ops: seq<QueueOp>)
    decreases |ops|
  {
    ops == [] ||
    (&& (ops[0].PublishOp? && ops[0].entropy.Some? ==> Base64Url.Encode(ops[0].entropy.value) !in AllIds(q))
     && FreshIds(Step(q, ops[0]).queue, ops[1..]))
  }

  /** One lease-expiry tick keeps the queue valid and loses no message. */
  lemma TickPreservesValid(q: QueueState, now: Time, order: seq<MessageId>)
    requires Valid(q)
    ensures var r := RequeueExpired(q, now, order).queue;
      Valid(r) && AllIds(r) == AllIds(q) && Total(r) == Total(q)
  {
    SweepPreservesValid(q, now, order, 0);
  }

  /** Each operation keeps the invariant and changes the total by the
      publishes minus the acks. */
  ghost predicate StepConserves(q: QueueState, op: QueueOp) {
    var s := Step(q, op);
    Valid(s.queue) && Total(s.queue) + s.acked == Total(q) + s.published
  }

  lemma PublishStepConserves(q: QueueState, payload: seq<byte>, entropy: Option<seq<byte>>)
    requires Valid(q)
    requires entropy.Some? ==> Base64Url.Encode(entropy.value) !in AllIds(q)
    ensures StepConserves(q, PublishOp(payload, entropy))
  {
    PublishPreservesValid(q, payload, entropy);
  }

  lemma ClaimStepConserves(q: QueueState, now: Time, deadline: Time)
    requires Valid(q)
    ensures StepConserves(q, ClaimOp(now, deadline))
  {
    ClaimPreservesValid(q, now, deadline);
  }

  lemma AckStepConserves(q: QueueState, id: MessageId)
    requires Valid(q)
    ensures StepConserves(q, AckOp(id))
  {
    AckPreservesValid(q, id);
  }

  lemma TickStepConserves(q: QueueState, now: Time, order: seq<MessageId>)
    requires Valid(q)
    ensures StepConserves(q, TickOp(now, order))
  {
    var s := Step(q, TickOp(now, order));
    assert s.queue == RequeueExpired(q, now, order).queue && s.published == 0 && s.acked == 0;
    TickPreservesValid(q, now, order);
  }

  lemma StepPreservesValid(q: QueueState, op: QueueOp)
    requires Valid(q)
    requires op.PublishOp? && op.entropy.Some? ==> Base64Url.Encode(op.entropy.value) !in AllIds(q)
    ensures StepConserves(q, op)
  {
    match op
    case PublishOp(payload, entropy) => PublishStepConserves(q, payload, entropy);
    case ClaimOp(now, deadline) => ClaimStepConserves(q, now, deadline);
    case AckOp(id) => AckStepConserves(q, id);
    case StatsOp =>
    case TickOp(now, order) => TickStepConserves(q, now, order);
  }

  /** Stats consistency over a run with fresh ids: the queue stays valid and
      holds exactly the messages it held, plus those published, minus those
      acknowledged. */
  lemma {:induction false} RunConservesMessages(q: QueueState, ops: seq<QueueOp>)
    requires Valid(q) && FreshIds(q, ops)
    ensures var t := Run(q, ops); Valid(t.queue) && Total(t.queue) + t.acked == Total(q) + t.published
    decreases |ops|
  {
    if ops != [] {
      StepPreservesValid(q, ops[0]);
      RunConservesMessages(Step(q, ops[0]).queue, ops[1..]);
    }
  }

  lemma StepKeepsLeasesBounded(q: QueueState, op: QueueOp)
    requires LeasesBounded(q)
    ensures LeasesBounded(Step(q, op).queue)
  {
  }

  /** The delivery-limit bound on leased messages holds after any run, with
      or without fresh ids. */
  lemma {:induction false} RunKeepsLeasesBounded(q: QueueState, ops: seq<QueueOp>)
    requires LeasesBounded(q)
    ensures LeasesBounded(Run(q, ops).queue)
    decreases |ops|
  {
    if ops != [] {
      StepKeepsLeasesBounded(q, ops[0]);
      RunKeepsLeasesBounded(Step(q, ops[0]).queue, ops[1..]);
    }
  }

  /** In every state a queue can reach, the dead-letter branch of the
      lease-expiry sweep is unreachable: a leased message never exceeds the
      limit, so an expired one always returns to `pending`. Dead-lettering
      happens only inside Claim. */
  lemma SweepDeadLetterBranchUnreachable(name: string, lease: Duration, maxDelivery: int, ops: seq<QueueOp>, now: Time, order: seq<MessageId>)
    ensures var q := Run(NewQueue(name, lease, maxDelivery), ops).queue;
      RequeueExpired(q, now, order).queue.deadLetter == q.deadLetter
  {
    RunKeepsLeasesBounded(NewQueue(name, lease, maxDelivery), ops);
  }
}

=== FILE: server.dfy ===
/** The API-key header parser of the HTTP layer (`getAPIKey` in
    internal/server/server.go), over the text of the `Authorization` header.
    A missing header reads as the empty string. */
module Server {
  import opened Common
  import opened Strings
  import Base64Url
  import Auth
  import AuthenticatedBroker

  /** Go's `(string, bool)` result of `getAPIKey`. */
  datatype ApiKey = ApiKey(key: string, ok: bool)

  const Scheme: string := "ApiKey"

  /** `getAPIKey`: the header is cut at its first ' '; the part before it
      must be exactly "ApiKey" and the rest, with surrounding white space
      trimmed, must be non-empty. Rejections carry the empty key. */
  function GetApiKey(header: string): (r: ApiKey)
    ensures !r.ok ==> r.key == []
    ensures r.ok ==> r.key != [] && IsTrimmed(r.key)
    ensures ' ' !in header ==> !r.ok
    ensures Cut(header, ' ').before != Scheme ==> !r.ok
    ensures r.ok <==> ' ' in header && Cut(header, ' ').before == Scheme && !AllSpace(Cut(header, ' ').after)
    ensures r.ok ==> r.key == TrimSpace(Cut(header, ' ').after)
  {
    var c := Cut(header, ' ');
    if !c.found || c.before != Scheme then ApiKey([], false)
    else
      var key := TrimSpace(c.after);
      if key == [] then ApiKey([], false) else ApiKey(key, true)
  }

  /** A header `ApiKey` + ' ' + a trimmed non-empty key padded with white
      space on either side yields exactly that key. */
  lemma GetApiKeyOfPaddedKey(pre: string, key: string, post: string)
    requires AllSpace(pre) && AllSpace(post)
    requires key != [] && IsTrimmed(key)
    ensures GetApiKey(Scheme + " " + pre + key + post) == ApiKey(key, true)
  {
    CutJoin(Scheme, ' ', pre + key + post);
    assert Scheme + " " + pre + key + post == Scheme + [' '] + (pre + key + post);
    TrimSpacePadded(pre, key, post);
  }

  /** Any other scheme word is rejected, whatever follows it. */
  lemma OtherSchemeRejected(scheme: string, rest: string)
    requires ' ' !in scheme && scheme != Scheme
    ensures GetApiKey(scheme + " " + rest) == ApiKey([], false)
  {
    CutJoin(scheme, ' ', rest);
    assert scheme + " " + rest == scheme + [' '] + rest;
  }

  /** A token whose two parts are base64url text has no white space at
      either end: it starts with a key-id character or the '.', and ends with
      a secret character or the '.'. */
  lemma TokenIsTrimmed(kid: string, text: string)
    requires forall i :: 0 <= i < |kid| ==> Base64Url.IsAlphabetChar(kid[i])
    requires forall i :: 0 <= i < |text| ==> Base64Url.IsAlphabetChar(text[i])
    ensures var token := Auth.Token(kid, text);
      token != [] && IsTrimmed(token)
  {
    var token := Auth.Token(kid, text);
    assert token[0] == if kid == [] then '.' else kid[0];
    assert token[|token| - 1] == if text == [] then '.' else text[|text| - 1];
  }

  /** A trimmed non-empty key sent as `ApiKey <key>` is parsed back intact. */
  lemma TrimmedKeyParses(key: string)
    requires key != [] && IsTrimmed(key)
    ensures GetApiKey("ApiKey " + key) == ApiKey(key, true)
  {
    GetApiKeyOfPaddedKey([], key, []);
    assert Scheme + " " + [] + key + [] == "ApiKey " + key;
  }

  /** An issued token sent as `ApiKey <token>` is parsed back intact. */
  lemma IssuedTokenParses(kidBytes: seq<byte>, secret: seq<byte>)
    ensures var token := Auth.Token(Base64Url.Encode(kidBytes), Base64Url.Encode(secret));
      GetApiKey("ApiKey " + token) == ApiKey(token, true)
  {
    var kid := Base64Url.Encode(kidBytes);
    var text := Base64Url.Encode(secret);
    TokenIsTrimmed(kid, text);
    TrimmedKeyParses(Auth.Token(kid, text));
  }

  /** End to end: the token CreateKey issues, sent as `ApiKey <token>`, is
      parsed back intact and validates to its tenant, whose queue `queue`
      is addressed as `tenant:queue`. */
  lemma IssuedKeyReachesTenantQueue(ab: AuthenticatedBroker.AuthBroker, tenantId: string, secret: seq<byte>, keyIdBytes: seq<byte>, sha: Auth.Hasher, queue: string)
    ensures var c := Auth.CreateKey(ab.auth, tenantId, Some(secret), Some(keyIdBytes), sha);
      && c.out.Ok?
      && GetApiKey("ApiKey " + c.out.value) == ApiKey(c.out.value, true)
      && AuthenticatedBroker.ValidateAndGetQueueName(ab.(auth := c.store), c.out.value, queue, sha)
         == Ok(AuthenticatedBroker.FullQueueName(tenantId, queue))
  {
    IssuedTokenParses(keyIdBytes, secret);
    Auth.CreateThenValidate(ab.auth, tenantId, secret, keyIdBytes, sha);
  }
}

=== FILE: strings.dfy ===
/** The two pieces of Go's `strings` package the core relies on: `Cut` with a
    one-character separator (the token's '.' and the header's ' ') and
    `TrimSpace`. Strings are sequences of Unicode code points; the separators
    are ASCII, so cutting at a code point is cutting at the same UTF-8 byte. */
module Strings {

  datatype CutResult = CutResult(before: string, after: string, found: bool)

  /** Go's `strings.Cut(s, sep)`: the text around the FIRST occurrence of `sep`,
      or `(s, "", false)` when there is none. */
  function Cut(s: string, sep: char): (r: CutResult)
    ensures r.found <==> sep in s
    ensures r.found ==> s == r.before + [sep] + r.after && sep !in r.before
    ensures !r.found ==> r.before == s && r.after == []
    decreases |s|
  {
    if |s| == 0 then CutResult(s, [], false)
    else if s[0] == sep then CutResult([], s[1..], true)
    else
      var rest := Cut(s[1..], sep);
      CutResult([s[0]] + rest.before, rest.after, rest.found)
  }

  /** Cutting a string built as `a + sep + b`, where `a` has no `sep`, gives
      back `a` and `b` exactly. */
  lemma {:induction false} CutJoin(a: string, sep: char, b: string)
    requires sep !in a
    ensures Cut(a + [sep] + b, sep) == CutResult(a, b, true)
    decreases |a|
  {
    var s := a + [sep] + b;
    if a != [] {
      assert s[0] == a[0] != sep;
      assert s[1..] == a[1..] + [sep] + b;
      CutJoin(a[1..], sep, b);
      assert [a[0]] + a[1..] == a;
    }
  }

  /** Go's `unicode.IsSpace`: the Latin-1 spaces '\t', '\n', '\v', '\f', '\r',
      ' ', U+0085 and U+00A0, and the other code points of Unicode's
      White_Space property. */
  predicate IsSpace(c: char) {
    || c == '\t' || c == '\n' || c == '\U{000B}' || c == '\U{000C}' || c == '\r' || c == ' '
    || c == '\U{0085}' || c == '\U{00A0}' || c == '\U{1680}'
    || ('\U{2000}' <= c <= '\U{200A}')
    || c == '\U{2028}' || c == '\U{2029}' || c == '\U{202F}' || c == '\U{205F}' || c == '\U{3000}'
  }

  /** On ASCII, IsSpace is exactly the six-character table `TrimSpace`
      consults on its ASCII fast path. */
  lemma IsSpaceAscii(c: char)
    requires c < '\U{0080}'
    ensures IsSpace(c) <==> c in "\t\n\U{000B}\U{000C}\r "
  {
  }

  /** True when `s` neither starts nor ends with a space. */
  predicate IsTrimmed(s: string) {
    s == [] || (!IsSpace(s[0]) && !IsSpace(s[|s| - 1]))
  }

  predicate AllSpace(s: string) {
    forall i :: 0 <= i < |s| ==> IsSpace(s[i])
  }

  /** The number of leading spaces of `s`: the index of its first non-space,
      or `|s|` when it has none. */
  function LeadingSpaces(s: string): (k: nat)
    ensures k <= |s|
    ensures forall i :: 0 <= i < k ==> IsSpace(s[i])
    ensures k < |s| ==> !IsSpace(s[k])
    decreases |s|
  {
    if |s| > 0 && IsSpace(s[0]) then 1 + LeadingSpaces(s[1..]) else 0
  }

  /** The number of trailing spaces of `s`. */
  function TrailingSpaces(s: string): (k: nat)
    ensures k <= |s|
    ensures forall i :: |s| - k <= i < |s| ==> IsSpace(s[i])
    ensures k < |s| ==> !IsSpace(s[|s| - 1 - k])
    decreases |s|
  {
    if |s| > 0 && IsSpace(s[|s| - 1]) then 1 + TrailingSpaces(s[..|s| - 1]) else 0
  }

  /** The contract of LeadingSpaces pins it down: `k` is the leading-space
      count as soon as everything before it is a space and `s[k]`, if any, is
      not. */
  lemma LeadingSpacesUnique(s: string, k: nat)
    requires k <= |s|
    requires forall i :: 0 <= i < k ==> IsSpace(s[i])
    requires k < |s| ==> !IsSpace(s[k])
    ensures LeadingSpaces(s) == k
  {
  }

  /** Likewise for the trailing-space count. */
  lemma TrailingSpacesUnique(s: string, k: nat)
    requires k <= |s|
    requires forall i :: |s| - k <= i < |s| ==> IsSpace(s[i])
    requires k < |s| ==> !IsSpace(s[|s| - 1 - k])
    ensures TrailingSpaces(s) == k
  {
  }

  /** Go's `strings.TrimSpace`: the infix left after removing all leading and
      trailing spaces. It is empty exactly when `s` is all spaces. */
  function TrimSpace(s: string): (r: string)
    ensures IsTrimmed(r)
    ensures r == [] <==> AllSpace(s)
    ensures var k := LeadingSpaces(s);
      && k + |r| <= |s| && r == s[k..k + |r|]
      && AllSpace(s[..k]) && AllSpace(s[k + |r|..])
  {
    var a := LeadingSpaces(s);
    if a == |s| then []
    else
      var z := TrailingSpaces(s);
      assert !IsSpace(s[a]);
      s[a..|s| - z]
  }

  /** Trimming removes exactly the space padding around a trimmed text. */
  lemma TrimSpacePadded(pre: string, t: string, post: string)
    requires AllSpace(pre) && AllSpace(post) && IsTrimmed(t)
    ensures TrimSpace(pre + t + post) == t
  {
    var s := pre + t + post;
    if t == [] {
      assert s == pre + post;
      assert AllSpace(s);
    } else {
      assert forall i :: 0 <= i < |pre| ==> s[i] == pre[i];
      assert s[|pre|] == t[0];
      LeadingSpacesUnique(s, |pre|);
      assert forall i :: |s| - |post| <= i < |s| ==> s[i] == post[i - (|s| - |post|)];
      assert s[|s| - 1 - |post|] == t[|t| - 1];
      TrailingSpacesUnique(s, |post|);
      assert s[|pre|..|s| - |post|] == t;
    }
  }
}
